=== FILE: README.md ===
# Graph-cleanup helpers and the GemmFastGelu fusion, in Dafny

This project models two parts of the ONNX Runtime transformer optimizer.

- **`FusionUtils`** holds the helpers the fusion rules share:
  - casting a graph input to int32, and undoing that cast;
  - checking a node attribute, a quantize/dequantize node and a constant input;
  - looking up an element type;
  - four whole-graph cleanup passes: collapsing cascaded Casts, eliding Identity nodes, and removing Cast and Reshape nodes that shape/type inference shows to be no-ops.
- **`FusionGemmFastGelu`** is the fusion rule that stages a `MatMul → FastGelu` pair for replacement by one `com.microsoft` `GemmFastGelu` node.

Modules:

- `Base`: `Option`, `Result`, and the Python exception classes a modelled path can raise.
- `OnnxGraph`: nodes, graphs and initializers, plus pure versions of the graph primitives the code calls:
  - the producer of a tensor (last writer wins, as a dictionary built in node order gives);
  - the readers of a tensor;
  - renaming a tensor in every node;
  - appending a node, and dropping nodes by position.
- `FusionUtils`: one function per helper or pass.
  - A pass scans the nodes in order and applies each rename to all nodes when it happens.
  - It drops removed nodes, by position, once the scan ends.
  - The Python code cannot tell the difference, because a removed node is never read again.
- `CleanupProofs` and `CheckProofs`: lemmas that relate several calls, or that compare a pass with an independent reference definition.
- `FusionGemmFastGelu`: the rule, the fused node it builds, and the lemmas about it.

Some things the code reaches are outside what can be seen here: the parent matcher, the safety check, fresh node names, graph pruning, constant folding and shape/type inference. Each becomes a parameter:

| Code reaches | Parameter |
|---|---|
| parent matcher | `Option<seq<Node>>` |
| safety check | `isSafe` |
| fresh node names | `newName` |
| graph pruning | `prune` |
| constant folding | `constant` |
| shape/type inference | an `Inference` record, or `None` when inference is unavailable |

A Python exception becomes `Err` with its class.

## Model

| member | source | states |
|---|---|---|
| OnnxGraph.ProducerIndex | onnxruntime/python/tools/transformers/fusion_utils.py:34-36 | the producer found is the last node writing the name; no node writes it when none is found |
| OnnxGraph.ProducersStable | onnxruntime/python/tools/transformers/fusion_utils.py:165-170 | rewriting only inputs leaves every producer lookup unchanged, so the cascade loop may look parents up in the graph it is editing |
| OnnxGraph.Consumers | onnxruntime/python/tools/transformers/fusion_utils.py:47-48 | the readers of a name are exactly the nodes listing it among their inputs, in node order, and the empty name has none |
| OnnxGraph.ReplaceInputOfAllNodes | onnxruntime/python/tools/transformers/fusion_utils.py:182 | every occurrence of the old name among node inputs becomes the new name; outputs and all other fields stay |
| OnnxGraph.ReplaceOutputOfAllNodes | onnxruntime/python/tools/transformers/fusion_utils.py:208 | every occurrence of the old name among node outputs becomes the new name; inputs and all other fields stay |
| OnnxGraph.Keep | onnxruntime/python/tools/transformers/fusion_utils.py:185 | the survivors are exactly the nodes at positions not removed, in their original order |
| OnnxGraph.KeepKeeps | onnxruntime/python/tools/transformers/fusion_utils.py:185 | a node at a position that is not removed is still present after removal |
| OnnxGraph.AddNode | onnxruntime/python/tools/transformers/fusion_utils.py:42 | the node is appended; earlier nodes, graph inputs, outputs and initializers are untouched |
| OnnxGraph.FindGraphInput | onnxruntime/python/tools/transformers/fusion_utils.py:20 | the first graph input carrying the name, or nothing when no graph input carries it |
| FusionUtils.CastGraphInputToInt32 | onnxruntime/python/tools/transformers/fusion_utils.py:19-27 | a cast is added exactly when the name is a graph input whose declared type is not INT32; it then returns the `_int32` name and one more node, and otherwise returns the original name and the unchanged graph |
| FusionUtils.CastInputToInt32 | onnxruntime/python/tools/transformers/fusion_utils.py:29-44 | it appends one Cast to INT32 writing `<name>_int32`; the Cast reads the producing Cast's input when a Cast produces the name, and the name itself otherwise; the graph boundary is unchanged |
| FusionUtils.RemoveCastInt32 | onnxruntime/python/tools/transformers/fusion_utils.py:46-59 | KeyError exactly when nothing reads the name; otherwise the boundary is kept and no node is added |
| FusionUtils.DropInt32Casts | onnxruntime/python/tools/transformers/fusion_utils.py:49-59 | the loop only renames node inputs: every node keeps its operator, name, attributes, domain and outputs |
| FusionUtils.CastsToInt32 | onnxruntime/python/tools/transformers/fusion_utils.py:50-55 | the test the removal loop applies to each reader: a Cast with some `to` attribute whose integer is INT32 |
| FusionUtils.DropInt32CastsRemoves | onnxruntime/python/tools/transformers/fusion_utils.py:49-59 | the positions the loop removes are exactly the readers of the name that are Casts to INT32 |
| CleanupProofs.DropInt32CastsRewires | onnxruntime/python/tools/transformers/fusion_utils.py:53-57 | once a reader that casts to INT32 has been handled, nothing reads its output any more |
| CleanupProofs.DropInt32CastsRedirects | onnxruntime/python/tools/transformers/fusion_utils.py:53-57 | every input that read a removed Cast's output reads the original name after the loop |
| CleanupProofs.RemoveCastInt32LeavesNoDanglingReader | onnxruntime/python/tools/transformers/fusion_utils.py:49-59 | after removal, no surviving node reads the output of a removed INT32 Cast |
| CleanupProofs.CastThenRemoveRoundTrip | onnxruntime/python/tools/transformers/fusion_utils.py:29-59 | removing the int32 casts of a name right after casting it gives back the original graph, when the name is not empty, is not the output of a Cast, is not already read by an INT32 Cast, and `<name>_int32` is unread |
| FusionUtils.CheckNodeAttribute | onnxruntime/python/tools/transformers/fusion_utils.py:61-84 | an expected list passes exactly against a list attribute equal element by element; any other expectation passes exactly when the attribute (or the default) equals it |
| FusionUtils.AttributeValue | onnxruntime/python/tools/transformers/fusion_utils.py:74-77 | the loop's value is the default or the value of some attribute with the name |
| CheckProofs.AttributeValueDefault | onnxruntime/python/tools/transformers/fusion_utils.py:74-77 | when no attribute has the name, the attribute loop yields the default |
| CheckProofs.AttributeValueIsLast | onnxruntime/python/tools/transformers/fusion_utils.py:74-77 | the attribute loop yields the value of the last attribute with the name |
| CheckProofs.CheckNodeAttributeLastWins | onnxruntime/python/tools/transformers/fusion_utils.py:74-84 | an attribute appended with the name decides the check alone, whatever came before it and whatever the default |
| CheckProofs.CheckNodeAttributeIgnoresOthers | onnxruntime/python/tools/transformers/fusion_utils.py:74-84 | attributes with other names never change the verdict |
| FusionUtils.ArrayTruth | onnxruntime/python/tools/transformers/fusion_utils.py:109-111 | a numpy boolean array has a truth value only when it holds one element, and that value is the element's; any other size raises ValueError |
| FusionUtils.CheckQdqNodeForFusion | onnxruntime/python/tools/transformers/fusion_utils.py:86-113 | IndexError exactly when there is no scale input; a non-constant scale fails; with no zero point it passes; with a zero point it passes exactly when that point is the single constant 0, and raises ValueError on a multi-element constant; the op type is never checked |
| FusionUtils.CheckNodeInputValue | onnxruntime/python/tools/transformers/fusion_utils.py:115-135 | an AssertionError exactly when the index is past the end, and an IndexError exactly when a negative index reaches before the start; a list matches exactly a 1-D constant equal to it, and a scalar matches exactly a single-element constant equal to it |
| CheckProofs.CheckNodeInputValueNegativeIndex | onnxruntime/python/tools/transformers/fusion_utils.py:126-128 | a negative index counts from the end: it gives the same verdict as the corresponding non-negative index |
| FusionUtils.GetDtype | onnxruntime/python/tools/transformers/fusion_utils.py:137-156 | the declared type wins; without inference the answer is none; with inference the answer is its value-info entry, and KeyError when the entry is missing |
| FusionUtils.UselessCastKeyErrorIsMissingEntry | onnxruntime/python/tools/transformers/fusion_utils.py:147-152 | a Cast's decision raises KeyError exactly when its input, or, once the input is found, its output has neither a declared type nor a value-info entry |
| FusionUtils.CascadeScan | onnxruntime/python/tools/transformers/fusion_utils.py:164-170 | only node inputs change, and the rewrite count never decreases |
| FusionUtils.CastAfterCast | onnxruntime/python/tools/transformers/fusion_utils.py:166-168 | the condition the cascade loop tests: a Cast whose producer through input 0 exists and is a Cast |
| FusionUtils.CascadeScanCounts | onnxruntime/python/tools/transformers/fusion_utils.py:164-174 | the rewrite count stays as it was exactly when no Cast from the current position on is fed by a Cast |
| FusionUtils.CascadeStep | onnxruntime/python/tools/transformers/fusion_utils.py:167-169 | one rewrite changes only that Cast's inputs, leaves every other node as it was, and does not change which other nodes are Casts fed by Casts |
| CleanupProofs.CascadeScanEffect | onnxruntime/python/tools/transformers/fusion_utils.py:164-170 | against an independent description of the loop: each Cast fed by a Cast reads its parent's input, taken after the parent's own rewrite when the parent comes first; every other node is untouched |
| CleanupProofs.CascadeCollapsesChains | onnxruntime/python/tools/transformers/fusion_utils.py:164-170 | when each Cast's parent comes before it, no Cast is fed by a Cast after the loop, so whole chains collapse in one pass |
| FusionUtils.RemoveCascadedCastNodes | onnxruntime/python/tools/transformers/fusion_utils.py:158-174 | the graph is returned unchanged exactly when no Cast is fed by a Cast; otherwise the rewritten graph is pruned |
| CleanupProofs.RemoveCascadedCastNodesIdempotent | onnxruntime/python/tools/transformers/fusion_utils.py:158-174 | the pass is idempotent: running it again on its own result, pruned or not, returns that result unchanged, for any pruning that only removes nodes |
| FusionUtils.IdentityScan | onnxruntime/python/tools/transformers/fusion_utils.py:179-184 | the scan only rewires node inputs: every node keeps its operator, name, attributes, domain and outputs |
| FusionUtils.Elidable | onnxruntime/python/tools/transformers/fusion_utils.py:180-181 | the condition the Identity loop tests: an Identity whose output is not a graph output |
| FusionUtils.IdentityScanElides | onnxruntime/python/tools/transformers/fusion_utils.py:179-185 | the positions collected are exactly the Identities whose output is not a graph output |
| FusionUtils.RemoveIdentityNodes | onnxruntime/python/tools/transformers/fusion_utils.py:176-186 | no elidable Identity survives; every other node survives with at most its inputs rewired; the graph boundary is kept |
| CleanupProofs.IdentityScanResolves | onnxruntime/python/tools/transformers/fusion_utils.py:179-184 | against a reference resolution, when each name has one producer and each elided Identity's input is produced before it: each input ends up naming the first tensor along its chain of elided Identities that is not itself an elided Identity's output |
| CleanupProofs.RemoveIdentityNodesIsRewired | onnxruntime/python/tools/transformers/fusion_utils.py:176-186 | the pass equals the reference graph: every input resolved through the elided Identities, and the elided positions dropped |
| CleanupProofs.RemoveIdentityNodesLeavesNoDanglingReader | onnxruntime/python/tools/transformers/fusion_utils.py:176-186 | after the pass, no node reads the output of an elided Identity, whatever the node order and however many nodes write a name, as long as the Identity chains are acyclic |
| CleanupProofs.IdentityScanUnreadsElided | onnxruntime/python/tools/transformers/fusion_utils.py:179-184 | for acyclic Identity chains, from the elision of an Identity on, nothing reads its output: each elision renames every reader to the Identity's current input, and later elisions only rename to names that are read |
| FusionUtils.UselessCastDecision | onnxruntime/python/tools/transformers/fusion_utils.py:194-200 | a Cast is listed exactly when its input type is known and non-zero and its output type is the same; IndexError for a missing input, then KeyError for an input type with no entry, then IndexError for a missing output, then KeyError for an output type with no entry |
| FusionUtils.UselessReshapeDecision | onnxruntime/python/tools/transformers/fusion_utils.py:222-231 | a Reshape is listed exactly when its input and output shapes are both inferred, non-empty and equal; IndexError exactly for a Reshape missing a first input or output |
| FusionUtils.Candidates | onnxruntime/python/tools/transformers/fusion_utils.py:194-200 | listing fails exactly when some node's decision raises; otherwise it lists only nodes decided useless, in increasing position |
| CleanupProofs.CandidatesComplete | onnxruntime/python/tools/transformers/fusion_utils.py:194-200 | every node decided useless is listed, so together with the above the list is exactly the useless nodes |
| FusionUtils.BoundaryStepAsWritten | onnxruntime/python/tools/transformers/fusion_utils.py:205-212 | as the code is written: a candidate writing a graph output and reading no graph input renames only its producers' output, never its input's other readers; on every other branch it agrees with the corrected rule |
| FusionUtils.BoundaryStepDangles | onnxruntime/python/tools/transformers/fusion_utils.py:206-208 | for Relu(X) -> t, useless Cast(t) -> Y with Y a graph output, and Neg(t) -> Z, the rule as written leaves Neg reading `t`, which no remaining node writes; the corrected rule has Neg read `Y` |
| FusionUtils.BoundaryStep | onnxruntime/python/tools/transformers/fusion_utils.py:203-213 | the corrected rule: a candidate is kept exactly when it both writes a graph output and reads a graph input, and keeping it changes nothing; otherwise only names change |
| FusionUtils.BoundaryStepEffect | onnxruntime/python/tools/transformers/fusion_utils.py:205-212 | a candidate writing a graph output and reading no graph input gives its input tensor its output name, in producers and readers alike; a candidate writing no graph output has its readers read its input |
| FusionUtils.BoundaryStepLeavesNoDanglingReader | onnxruntime/python/tools/transformers/fusion_utils.py:205-212 | once the corrected rule drops a candidate, no node reads the name it took out of the graph, and when that name was its input no node writes it either |
| FusionUtils.RemoveWithBoundary | onnxruntime/python/tools/transformers/fusion_utils.py:202-213 | only names change, and only listed candidates are removed |
| FusionUtils.RemoveUseless | onnxruntime/python/tools/transformers/fusion_utils.py:188-244 | fails exactly when some decision raises; otherwise the boundary is kept, no node is added, and the graph is untouched when nothing is useless |
| CleanupProofs.RemoveUselessKeepsOthers | onnxruntime/python/tools/transformers/fusion_utils.py:202-213 | a node not decided useless survives, with only its names changed |
| CleanupProofs.RemoveWithBoundaryKeepsBoundary | onnxruntime/python/tools/transformers/fusion_utils.py:202-213 | in a well-formed graph, each candidate the loop keeps still writes a graph output and reads a graph input when the loop ends |
| CleanupProofs.RemoveUselessKeepsOnlyBoundary | onnxruntime/python/tools/transformers/fusion_utils.py:202-213 | in a well-formed graph, every survivor is either a node not decided useless or a useless node that writes a graph output and reads a graph input |
| CleanupProofs.BoundaryNodeNotRemoved | onnxruntime/python/tools/transformers/fusion_utils.py:205-209 | in a well-formed graph, a candidate not yet removed that reads a graph input and writes a graph output is skipped by the rest of the loop and still meets both boundaries at its end |
| CleanupProofs.RemoveUselessKeepsBoundaryNode | onnxruntime/python/tools/transformers/fusion_utils.py:202-213 | in a well-formed graph, a node decided useless that reads a graph input and writes a graph output survives the pass with only its names changed, still meeting both boundaries |
| FusionUtils.RemoveUselessCastNodes | onnxruntime/python/tools/transformers/fusion_utils.py:188-214 | nothing changes without inference; with inference it fails exactly when the decision for some Cast raises (IndexError for a missing input or output, KeyError for a type lookup with no entry), and otherwise keeps the boundary and adds no node |
| FusionUtils.RemoveUselessReshapeNodes | onnxruntime/python/tools/transformers/fusion_utils.py:216-244 | nothing changes without inference; with inference it fails exactly when a Reshape lacks a first input or output, and otherwise keeps the boundary and adds no node |
| CleanupProofs.RemoveUselessCastRenamesEverywhere | onnxruntime/python/tools/transformers/fusion_utils.py:188-214 | on the Relu/Cast/Neg example with Y a graph output, the Cast pass removes the Cast and leaves Relu writing `Y` and Neg reading it |
| FusionGemmFastGelu.NewFusionGemmFastGelu | onnxruntime/python/tools/transformers/fusion_gemmfastgelu.py:16-18 | the rule fuses into GemmFastGelu, is triggered by FastGelu, is described as GemmFastGelu, and starts with nothing staged |
| FusionGemmFastGelu.FirstInitializer | onnxruntime/python/tools/transformers/fusion_gemmfastgelu.py:32-38 | the position found names an initializer, and no earlier name does; nothing is found exactly when no name is an initializer |
| FusionGemmFastGelu.Fuse | onnxruntime/python/tools/transformers/fusion_gemmfastgelu.py:20-77 | it stages exactly when the MatMul matched, its first initializer input is 2-D, the bias (when the FastGelu has two inputs) is 1-D, and fusing is safe; it then removes both nodes, appends the fused node, and records its graph; a failed match abstains |
| FusionGemmFastGelu.FusedNode | onnxruntime/python/tools/transformers/fusion_gemmfastgelu.py:68-75 | the fused node reads the non-weight MatMul input, then the weight, then the bias when the FastGelu has two inputs; it writes the FastGelu's outputs and lives in the `com.microsoft` domain |
| FusionGemmFastGelu.FusedNodeReplacesPair | onnxruntime/python/tools/transformers/fusion_gemmfastgelu.py:66-77 | the fused node is a com.microsoft GemmFastGelu writing the FastGelu's outputs; its first two inputs are the MatMul's two inputs, and it has a third input exactly when the FastGelu has two inputs |
| FusionGemmFastGelu.FusedNodeReadsWeightSecond | onnxruntime/python/tools/transformers/fusion_gemmfastgelu.py:29-58 | the second input of the fused node is the MatMul's 2-D initializer weight; a third input is a 1-D initializer taken from the FastGelu's inputs |
| FusionGemmFastGelu.FusedNodeCanonicalOrder | onnxruntime/python/tools/transformers/fusion_gemmfastgelu.py:29-38 | when exactly one MatMul input is an initializer, the fused node is the same whichever slot the weight was in |
| FusionGemmFastGelu.FuseAsWritten | onnxruntime/python/tools/transformers/fusion_gemmfastgelu.py:25-27 | as written, a failed match raises TypeError; a successful match behaves as the corrected rule |
| FusionGemmFastGelu.FailedMatchRaises | onnxruntime/python/tools/transformers/fusion_gemmfastgelu.py:25-27 | a FastGelu with no MatMul parent makes the code as written raise, while the corrected rule leaves the fusion unchanged |

## Left out

- `NumpyHelper` (tensor-to-array conversion) is not part of this model. Constants reach the checks through the `constant` parameter as a shape plus row-major elements.
- Logging, and the counts the passes log, have no effect on the graph and are left out.
- Subgraphs (If and Loop bodies) are left out. The passes read `self.model.nodes()` and the graph's own inputs and outputs, which is what the model covers.
- The symbolic shape inference engine is left out. So are its `update=True` write-back and how it produces types and shapes. Its results are the `Inference` parameter. A missing edge shape reads as "no shape".
- The fusion driver is left out: matching nodes, applying the staged removals and additions, and pruning. `prune`, `isSafe`, the matcher and `newName` are parameters.
- `remove_node` removes the first node equal to its argument. The model removes by position, assuming no two nodes are equal field by field.
- The reader index lists a node once per input naming the tensor; `Consumers` lists each node once. The difference shows only for a Cast reading the same name twice, which the Cast schema (one input) rules out.
- The numpy truth value of an empty array (deprecated and version-dependent) is modelled as ValueError, like any other size but one.
- `SchemaArity` (every Cast, Identity and Reshape has a first input and a first output, as their ONNX schemas demand) is required by `FusionUtils.CastInputToInt32`, `FusionUtils.CastGraphInputToInt32`, `FusionUtils.RemoveCastInt32`, `FusionUtils.DropInt32Casts`, `FusionUtils.CascadeScan`, `FusionUtils.CascadeStep`, `FusionUtils.RemoveCascadedCastNodes`, `FusionUtils.IdentityScan`, `FusionUtils.RemoveIdentityNodes` and the lemmas about them. On a malformed node the Python code raises IndexError, which these members do not model. `FusionUtils.RemoveUselessCastNodes` and `FusionUtils.RemoveUselessReshapeNodes` do not require it and model that IndexError.
- `FusionGemmFastGelu.Fuse`: `|node.outputs| >= 1` and `MatchShape` (a match is one MatMul with two inputs) are required, as the FastGelu and MatMul schemas guarantee.
- `CleanupProofs.RemoveUselessKeepsOnlyBoundary`, `CleanupProofs.RemoveWithBoundaryKeepsBoundary`, `CleanupProofs.BoundaryNodeNotRemoved` and `CleanupProofs.RemoveUselessKeepsBoundaryNode` assume `BoundaryWellFormed` (the loop lemmas its loop form, `LoopInvariant`): graph inputs and outputs are disjoint, no node writes a graph input, and candidates have one output. Without it, a useless Cast reading a graph-output name can hand that name away.
- `FusionUtils.RemoveUselessCastNodes` and `FusionUtils.RemoveUselessReshapeNodes` use the corrected boundary rule `FusionUtils.BoundaryStep`, which renames a dropped candidate's input tensor in its readers as well as its producers. The code as written, `FusionUtils.BoundaryStepAsWritten`, renames only the producers (see Findings).
- `FusionUtils.RemoveWithBoundary`: its own contract does not say that a candidate reading a graph input and writing a graph output is kept, because that holds only in a well-formed graph. `CleanupProofs.BoundaryNodeNotRemoved` states it for the loop and `CleanupProofs.RemoveUselessKeepsBoundaryNode` for the whole pass.
- `CleanupProofs.IdentityScanResolves` assumes one producer per name and each elided Identity's input produced before it (`ResolvableChains`). The loop does not need them; the `Resolve` reference it is compared with follows producers and needs them.
- `CleanupProofs.RemoveIdentityNodesIsRewired` assumes a producer-before-reader order (topological order) and unique producers, because its reference `Resolve` follows producers. The Identity loop itself needs neither: see `CleanupProofs.RemoveIdentityNodesLeavesNoDanglingReader`.
- `CleanupProofs.CascadeCollapsesChains` assumes that each Cast fed by a Cast comes after its parent (`CastInputsPrecede`). The Cast loop needs this: it looks at each Cast once, so a Cast that comes before its parent is rewired only to the parent's input at that moment.
- `CleanupProofs.RemoveCascadedCastNodesIdempotent` assumes that each Cast fed by a Cast comes after its parent (`CastInputsPrecede`), unique producers, and a pruning that only removes nodes. Out of order, one run can leave a Cast reading a Cast, which a second run would rewire.
- `CleanupProofs.RemoveIdentityNodesLeavesNoDanglingReader` assumes the Identity chains are acyclic, stated as a rank that grows from each elidable Identity's input to its output. For a cycle of Identities, the loop can rename a reader to an output that was already elided.
- `FusionUtils.CheckNodeInputValue` returns the truth value its caller tests, not the numpy array the scalar case returns.

Behaviour a reader might not expect, which the model follows:

- `check_qdq_node_for_fusion` only logs an unexpected op type (onnxruntime/python/tools/transformers/fusion_utils.py:98-99).
- `check_qdq_node_for_fusion` does not reject a per-channel scale. Its multi-element zero point raises ValueError instead of returning False (onnxruntime/python/tools/transformers/fusion_utils.py:101-111).
- `cast_input_to_int32` looks at the PRODUCER of the name (reusing a parent Cast's input), not at its readers (onnxruntime/python/tools/transformers/fusion_utils.py:29-44).
- The Reshape/Cast boundary rule tests EVERY input and output against the graph boundary (a set intersection), not only the first (onnxruntime/python/tools/transformers/fusion_utils.py:203-207 and 234-238).

## Findings

| source | as written | input that shows it | evidently intended | confidence | as-written member | corrected member |
|---|---|---|---|---|---|---|
| onnxruntime/python/tools/transformers/fusion_gemmfastgelu.py:25-27 | the matcher's result is unpacked as `[matmul] = ...` before the `is None` test, so a failed match raises TypeError and the `None` test never fires | a FastGelu whose input 0 is not produced by a MatMul (matcher returns None) | a failed match abstains and leaves the fusion unchanged | high; not executed | FusionGemmFastGelu.FuseAsWritten | FusionGemmFastGelu.Fuse |
| onnxruntime/python/tools/transformers/fusion_utils.py:208 | a useless Cast (and, at line 239, a useless Reshape) that writes a graph output and reads no graph input is removed after `replace_output_of_all_nodes(node.input[0], node.output[0])`, which renames only the producers of its input; other readers of that input keep a name no node writes | Relu(X) -> t, useless Cast(t) -> Y with Y a graph output, Neg(t) -> Z: Neg is left reading `t` (`FusionUtils.BoundaryStepDangles`) | the input tensor takes the output name everywhere, readers included, so no edge is left dangling | medium; not executed | FusionUtils.BoundaryStepAsWritten | FusionUtils.BoundaryStep |

=== FILE: base.dfy ===
/** Failure-carrying values shared by the whole model.

    The Python code reports problems by raising; each exception that a
    modelled path can raise becomes an `Err` carrying its Python class. */
module Base {

  datatype Option<+T> = None | Some(value: T)

  /** The Python exception classes the modelled code can raise. */
  datatype PyError =
    | IndexError      // subscript past the end of a list or repeated field
    | KeyError        // dictionary lookup of a missing key
    | TypeError       // unpacking `None` into a list pattern
    | ValueError      // truth value of a multi-element array
    | AssertionError  // a failed `assert`

  datatype Result<+T> = Ok(value: T) | Err(error: PyError)
}

=== FILE: check_proofs.dfy ===
/** Properties of the attribute and constant-input checks of `FusionUtils`
    that relate several calls. */
module CheckProofs {
  import opened Base
  import opened OnnxGraph
  import opened FusionUtils

  /** With no attribute called `name` among the first `i`, the attribute loop
      yields the default. */
  lemma {:induction false} AttributeValueDefault(attrs: seq<Attribute>, name: string, default: Option<AttrValue>, i: nat)
    requires i <= |attrs| && forall k :: 0 <= k < i ==> attrs[k].name != name
    ensures AttributeValue(attrs, name, default, i) == default
    decreases i
  {
    if i > 0 {
      AttributeValueDefault(attrs, name, default, i - 1);
    }
  }

  /** The attribute loop yields the LAST attribute called `name`: the one at
      `k` when none after it, among the first `i`, has that name. */
  lemma {:induction false} AttributeValueIsLast(
    attrs: seq<Attribute>, name: string, default: Option<AttrValue>, i: nat, k: nat)
    requires k < i <= |attrs| && attrs[k].name == name
    requires forall j :: k < j < i ==> attrs[j].name != name
    ensures AttributeValue(attrs, name, default, i) == Some(attrs[k].value)
    decreases i
  {
    if k < i - 1 {
      AttributeValueIsLast(attrs, name, default, i - 1, k);
    }
  }

  /** A later attribute of the same name overrides every earlier one: the
      check then judges that attribute alone, whatever the default. */
  lemma CheckNodeAttributeLastWins(
    node: Node, name: string, v: AttrValue, expected: AttrValue, default: Option<AttrValue>, default': Option<AttrValue>)
    ensures CheckNodeAttribute(node.(attrs := node.attrs + [Attribute(name, v)]), name, expected, default)
         == CheckNodeAttribute(node.(attrs := [Attribute(name, v)]), name, expected, default')
  {
  }

  /** Attributes of other names do not affect the check. */
  lemma {:induction false} CheckNodeAttributeIgnoresOthers(
    node: Node, name: string, others: seq<Attribute>, expected: AttrValue, default: Option<AttrValue>)
    requires forall j :: 0 <= j < |others| ==> others[j].name != name
    ensures CheckNodeAttribute(node.(attrs := node.attrs + others), name, expected, default)
         == CheckNodeAttribute(node, name, expected, default)
  {
    AttributeValueIgnoresOthers(node.attrs, others, name, default, |others|);
  }

  lemma {:induction false} AttributeValueIgnoresOthers(
    attrs: seq<Attribute>, others: seq<Attribute>, name: string, default: Option<AttrValue>, i: nat)
    requires i <= |others| && forall j :: 0 <= j < |others| ==> others[j].name != name
    ensures AttributeValue(attrs + others, name, default, |attrs| + i) == AttributeValue(attrs, name, default, |attrs|)
    decreases i
  {
    if i == 0 {
      AttributeValuePrefix(attrs, others, name, default, |attrs|);
    } else {
      assert (attrs + others)[|attrs| + i - 1] == others[i - 1];
      AttributeValueIgnoresOthers(attrs, others, name, default, i - 1);
    }
  }

  /** The value after the first `i` attributes depends only on those attributes. */
  lemma {:induction false} AttributeValuePrefix(
    attrs: seq<Attribute>, more: seq<Attribute>, name: string, default: Option<AttrValue>, i: nat)
    requires i <= |attrs|
    ensures AttributeValue(attrs + more, name, default, i) == AttributeValue(attrs, name, default, i)
    decreases i
  {
    if i > 0 {
      assert (attrs + more)[i - 1] == attrs[i - 1];
      AttributeValuePrefix(attrs, more, name, default, i - 1);
    }
  }

  /** A negative input index names the same input as its non-negative counterpart. */
  lemma CheckNodeInputValueNegativeIndex(
    node: Node, index: nat, expected: Expected, constant: string -> Option<ConstValue>)
    requires index < |node.inputs|
    ensures CheckNodeInputValue(node, index - |node.inputs|, expected, constant)
         == CheckNodeInputValue(node, index, expected, constant)
  {
  }
}

=== FILE: cleanup_proofs.dfy ===
/** What the cleanup passes of `FusionUtils` achieve, stated against
    reference definitions that do not follow the passes' loops. */
module CleanupProofs {
  import opened Base
  import opened OnnxGraph
  import opened FusionUtils

  // ---------------------------------------------------------------------------
  // Cascaded Casts

  /** Node `k` of `r` is node `k` of `nodes` reading, as input 0, its parent
      Cast's input 0 -- as the parent reads it after its own rewrite when the
      parent comes first, and as it originally reads it otherwise. */
  predicate BypassesParent(nodes: seq<Node>, r: seq<Node>, k: nat)
    requires k < |nodes| && CastAfterCast(nodes, k) && OnlyInputsDiffer(nodes, r) && SchemaArity(nodes)
  {
    var p := ProducerIndex(nodes, nodes[k].inputs[0]).value;
    assert nodes[p].opType == "Cast";
    && |r[p].inputs| >= 1
    && r[k] == nodes[k].(inputs := nodes[k].inputs[0 := if p < k then r[p].inputs[0] else nodes[p].inputs[0]])
  }

  /** The scan of `remove_cascaded_cast_nodes` rewrites exactly the Casts fed
      by a Cast, each to bypass its parent, and touches nothing else. */
  lemma CascadeScanEffect(nodes: seq<Node>, t: nat, count: nat)
    requires t <= |nodes| && SchemaArity(nodes)
    ensures var r := CascadeScan(nodes, t, count).0;
      && (forall k :: 0 <= k < t ==> r[k] == nodes[k])
      && (forall k :: t <= k < |nodes| && !CastAfterCast(nodes, k) ==> r[k] == nodes[k])
      && (forall k :: t <= k < |nodes| && CastAfterCast(nodes, k) ==> BypassesParent(nodes, r, k))
  {
    forall k | 0 <= k < |nodes| && (k < t || !CastAfterCast(nodes, k))
      ensures CascadeScan(nodes, t, count).0[k] == nodes[k]
    {
      if k < t {
        CascadeKeepsDone(nodes, t, count, k);
      } else {
        CascadeKeepsOthers(nodes, t, count, k);
      }
    }
    forall k | t <= k < |nodes| && CastAfterCast(nodes, k)
      ensures BypassesParent(nodes, CascadeScan(nodes, t, count).0, k)
    {
      CascadeBypasses(nodes, t, count, k);
    }
  }

  /** Positions before the scan's start are never rewritten. */
  lemma {:induction false} CascadeKeepsDone(nodes: seq<Node>, t: nat, count: nat, k: nat)
    requires t <= |nodes| && SchemaArity(nodes) && k < t
    ensures CascadeScan(nodes, t, count).0[k] == nodes[k]
    decreases |nodes| - t
  {
    if t < |nodes| {
      if CastAfterCast(nodes, t) {
        var nodes' := CascadeStep(nodes, t);
        CascadeKeepsDone(nodes', t + 1, count + 1, k);
        assert CascadeScan(nodes, t, count) == CascadeScan(nodes', t + 1, count + 1);
      } else {
        CascadeKeepsDone(nodes, t + 1, count, k);
        assert CascadeScan(nodes, t, count) == CascadeScan(nodes, t + 1, count);
      }
    }
  }

  /** A node that is not a Cast fed by a Cast is never rewritten. */
  lemma {:induction false} CascadeKeepsOthers(nodes: seq<Node>, t: nat, count: nat, k: nat)
    requires t <= k < |nodes| && SchemaArity(nodes) && !CastAfterCast(nodes, k)
    ensures CascadeScan(nodes, t, count).0[k] == nodes[k]
    decreases |nodes| - t
  {
    if k == t {
      CascadeKeepsDone(nodes, t + 1, count, k);
      assert CascadeScan(nodes, t, count) == CascadeScan(nodes, t + 1, count);
    } else if CastAfterCast(nodes, t) {
      var nodes' := CascadeStep(nodes, t);
      assert nodes'[k] == nodes[k] && !CastAfterCast(nodes', k);
      CascadeKeepsOthers(nodes', t + 1, count + 1, k);
      assert CascadeScan(nodes, t, count) == CascadeScan(nodes', t + 1, count + 1);
    } else {
      CascadeKeepsOthers(nodes, t + 1, count, k);
      assert CascadeScan(nodes, t, count) == CascadeScan(nodes, t + 1, count);
    }
  }

  /** A Cast fed by a Cast ends up bypassing its parent. */
  lemma {:induction false} CascadeBypasses(nodes: seq<Node>, t: nat, count: nat, k: nat)
    requires t <= k < |nodes| && SchemaArity(nodes) && CastAfterCast(nodes, k)
    ensures BypassesParent(nodes, CascadeScan(nodes, t, count).0, k)
    decreases |nodes| - t, 1
  {
    if k == t {
      CascadeBypassesHere(nodes, t, count);
    } else if CastAfterCast(nodes, t) {
      CascadeBypassesPastStep(nodes, t, count, k);
    } else {
      CascadeBypasses(nodes, t + 1, count, k);
      assert CascadeScan(nodes, t, count) == CascadeScan(nodes, t + 1, count);
    }
  }

  /** The case where the scan rewrites an earlier Cast at `t` first. */
  lemma {:induction false} CascadeBypassesPastStep(nodes: seq<Node>, t: nat, count: nat, k: nat)
    requires t < k < |nodes| && SchemaArity(nodes) && CastAfterCast(nodes, k) && CastAfterCast(nodes, t)
    ensures BypassesParent(nodes, CascadeScan(nodes, t, count).0, k)
    decreases |nodes| - t, 0
  {
    var nodes' := CascadeStep(nodes, t);
    var r := CascadeScan(nodes', t + 1, count + 1).0;
    assert CascadeScan(nodes, t, count) == CascadeScan(nodes', t + 1, count + 1);
    assert CastAfterCast(nodes', k);
    CascadeBypasses(nodes', t + 1, count + 1, k);
    BypassesAfterStep(nodes, t, k, r);
  }

  /** The rewrite at the scan's own position. */
  lemma CascadeBypassesHere(nodes: seq<Node>, t: nat, count: nat)
    requires t < |nodes| && SchemaArity(nodes) && CastAfterCast(nodes, t)
    ensures BypassesParent(nodes, CascadeScan(nodes, t, count).0, t)
  {
    var p := ProducerIndex(nodes, nodes[t].inputs[0]).value;
    var nodes' := CascadeStep(nodes, t);
    var r := CascadeScan(nodes', t + 1, count + 1).0;
    assert CascadeScan(nodes, t, count).0 == r;
    CascadeKeepsDone(nodes', t + 1, count + 1, t);
    if p < t {
      CascadeKeepsDone(nodes', t + 1, count + 1, p);
    }
  }

  /** Bypassing the parent is judged the same before and after an earlier rewrite. */
  lemma BypassesAfterStep(nodes: seq<Node>, t: nat, k: nat, r: seq<Node>)
    requires t < k < |nodes| && SchemaArity(nodes) && CastAfterCast(nodes, t) && CastAfterCast(nodes, k)
    requires CastAfterCast(CascadeStep(nodes, t), k)
    requires OnlyInputsDiffer(CascadeStep(nodes, t), r) && BypassesParent(CascadeStep(nodes, t), r, k)
    ensures OnlyInputsDiffer(nodes, r) && BypassesParent(nodes, r, k)
  {
    var nodes' := CascadeStep(nodes, t);
    assert nodes'[k] == nodes[k];
    var p := ProducerIndex(nodes, nodes[k].inputs[0]).value;
    assert ProducerIndex(nodes', nodes'[k].inputs[0]).value == p;
    assert OnlyInputsDiffer(nodes, r) by {
      forall j | 0 <= j < |nodes|
        ensures r[j] == nodes[j].(inputs := r[j].inputs) && |r[j].inputs| == |nodes[j].inputs|
      {
        assert nodes'[j] == nodes[j].(inputs := nodes'[j].inputs);
      }
    }
    if p >= k {
      assert nodes'[p] == nodes[p];
    }
  }

  /** Every Cast's parent through input 0, when it has one, comes before it
      (the node order of a topologically sorted graph). */
  predicate CastInputsPrecede(nodes: seq<Node>) {
    forall k :: 0 <= k < |nodes| ==>
      (nodes[k].opType == "Cast" && |nodes[k].inputs| >= 1 && ProducerIndex(nodes, nodes[k].inputs[0]).Some?
       ==> ProducerIndex(nodes, nodes[k].inputs[0]).value < k)
  }

  /** In a topologically ordered graph, one scan collapses whole Cast chains:
      afterwards no Cast is fed by a Cast. */
  lemma CascadeCollapsesChains(nodes: seq<Node>)
    requires SchemaArity(nodes) && CastInputsPrecede(nodes)
    ensures var r := CascadeScan(nodes, 0, 0).0;
      forall k :: 0 <= k < |r| ==> !CastAfterCast(r, k)
  {
    var r := CascadeScan(nodes, 0, 0).0;
    CascadeScanEffect(nodes, 0, 0);
    ProducersStable(nodes, r);
    forall k | 0 <= k < |r|
      ensures !CastAfterCast(r, k)
    {
      NoCastAfterCastAt(nodes, r, k);
    }
  }

  lemma {:induction false} NoCastAfterCastAt(nodes: seq<Node>, r: seq<Node>, k: nat)
    requires SchemaArity(nodes) && CastInputsPrecede(nodes) && r == CascadeScan(nodes, 0, 0).0
    requires forall k :: 0 <= k < |nodes| && !CastAfterCast(nodes, k) ==> r[k] == nodes[k]
    requires forall k :: 0 <= k < |nodes| && CastAfterCast(nodes, k) ==> BypassesParent(nodes, r, k)
    requires forall name :: ProducerIndex(nodes, name) == ProducerIndex(r, name)
    requires k < |r|
    ensures !CastAfterCast(r, k)
    decreases k
  {
    if CastAfterCast(nodes, k) {
      var p := ProducerIndex(nodes, nodes[k].inputs[0]).value;
      assert p < k;
      NoCastAfterCastAt(nodes, r, p);
      assert r[k].inputs[0] == r[p].inputs[0];
    } else if r[k].opType == "Cast" && |r[k].inputs| >= 1 {
      assert r[k] == nodes[k];
    }
  }

  /** `prune_graph` only removes nodes: every node it keeps was in the graph. */
  ghost predicate PruneOnlyRemoves(prune: Graph -> Graph) {
    forall h, n :: n in prune(h).nodes ==> n in h.nodes
  }

  /** `remove_cascaded_cast_nodes` is idempotent on a topologically ordered
      graph whose tensors each have one producer: a second run finds no Cast
      fed by a Cast in the (possibly pruned) result and returns it unchanged. */
  lemma RemoveCascadedCastNodesIdempotent(g: Graph, prune: Graph -> Graph)
    requires SchemaArity(g.nodes) && CastInputsPrecede(g.nodes) && UniqueProducers(g.nodes)
    requires PruneOnlyRemoves(prune)
    ensures var h := RemoveCascadedCastNodes(g, prune);
      SchemaArity(h.nodes) && RemoveCascadedCastNodes(h, prune) == h
  {
    if exists k :: 0 <= k < |g.nodes| && CastAfterCast(g.nodes, k) {
      var r := CascadeScan(g.nodes, 0, 0).0;
      CascadeScanSettles(g.nodes, r);
      var h := prune(g.(nodes := r));
      assert forall n :: n in h.nodes ==> n in r;
      KeptNodesNoCastAfterCast(r, h.nodes);
    }
  }

  /** The scanned nodes keep the schema arity and the unique producers, and
      hold no Cast fed by a Cast. */
  lemma CascadeScanSettles(nodes: seq<Node>, r: seq<Node>)
    requires SchemaArity(nodes) && CastInputsPrecede(nodes) && UniqueProducers(nodes)
    requires r == CascadeScan(nodes, 0, 0).0
    ensures SchemaArity(r) && UniqueProducers(r)
    ensures forall k :: 0 <= k < |r| ==> !CastAfterCast(r, k)
  {
    OnlyInputsDifferNames(nodes, r);
    SchemaArityKept(nodes, r);
    CascadeCollapsesChains(nodes);
    forall i, j, x | 0 <= i < j < |r| && x in r[i].outputs
      ensures x !in r[j].outputs
    {
      assert r[i].outputs == nodes[i].outputs && r[j].outputs == nodes[j].outputs;
    }
  }

  /** Keeping only some of the nodes of a graph with unique producers and no
      Cast fed by a Cast creates no such pair. */
  lemma KeptNodesNoCastAfterCast(r: seq<Node>, s: seq<Node>)
    requires SchemaArity(r) && UniqueProducers(r)
    requires forall k :: 0 <= k < |r| ==> !CastAfterCast(r, k)
    requires forall n :: n in s ==> n in r
    ensures SchemaArity(s)
    ensures forall k :: 0 <= k < |s| ==> !CastAfterCast(s, k)
  {
    forall k | 0 <= k < |s| && s[k].opType in {"Cast", "Identity", "Reshape"}
      ensures |s[k].inputs| >= 1 && |s[k].outputs| >= 1
    {
      assert s[k] in r;
      var k' :| 0 <= k' < |r| && r[k'] == s[k];
    }
    forall k | 0 <= k < |s|
      ensures !CastAfterCast(s, k)
    {
      if s[k].opType == "Cast" && |s[k].inputs| >= 1 && ProducerIndex(s, s[k].inputs[0]).Some? {
        var name := s[k].inputs[0];
        var p := ProducerIndex(s, name).value;
        assert s[k] in r && s[p] in r;
        var k' :| 0 <= k' < |r| && r[k'] == s[k];
        var p' :| 0 <= p' < |r| && r[p'] == s[p];
        ProducerOfOwnOutput(r, p', name);
        assert !CastAfterCast(r, k');
      }
    }
  }

  // ---------------------------------------------------------------------------
  // Identity elision

  /** Every elided Identity's producer through input 0, when it has one,
      comes before it. */
  predicate ElidedInputsPrecede(nodes: seq<Node>, graphOut: set<string>) {
    forall k :: 0 <= k < |nodes| ==>
      (Elidable(nodes[k], graphOut) && |nodes[k].inputs| >= 1 && ProducerIndex(nodes, nodes[k].inputs[0]).Some?
       ==> ProducerIndex(nodes, nodes[k].inputs[0]).value < k)
  }

  /** The tensor a reader of `x` reads once the elidable Identities before
      position `t` are gone: follow `x` back through every such Identity that
      produces it to the first name no elided Identity produces. */
  function Resolve(nodes: seq<Node>, graphOut: set<string>, x: string, t: nat): string
    decreases t
  {
    match ProducerIndex(nodes, x)
    case None => x
    case Some(p) =>
      if p < t && Elidable(nodes[p], graphOut) && |nodes[p].inputs| >= 1 && x == nodes[p].outputs[0]
      then Resolve(nodes, graphOut, nodes[p].inputs[0], p)
      else x
  }

  /** A resolved name is the name itself, has no producer, or is produced before `t`. */
  lemma {:induction false} ResolveShape(nodes: seq<Node>, graphOut: set<string>, x: string, t: nat)
    requires ElidedInputsPrecede(nodes, graphOut)
    ensures var z := Resolve(nodes, graphOut, x, t);
      z == x || ProducerIndex(nodes, z).None? || ProducerIndex(nodes, z).value < t
    decreases t
  {
    match ProducerIndex(nodes, x)
    case None =>
    case Some(p) =>
      if p < t && Elidable(nodes[p], graphOut) && |nodes[p].inputs| >= 1 && x == nodes[p].outputs[0] {
        ResolveShape(nodes, graphOut, nodes[p].inputs[0], p);
      }
  }

  /** Extending resolution by one position. */
  lemma ResolveStep(nodes: seq<Node>, graphOut: set<string>, x: string, t: nat)
    requires ElidedInputsPrecede(nodes, graphOut) && UniqueProducers(nodes) && SchemaArity(nodes)
    requires t < |nodes|
    ensures Resolve(nodes, graphOut, x, t + 1) ==
      if Elidable(nodes[t], graphOut) && Resolve(nodes, graphOut, x, t) == nodes[t].outputs[0]
      then Resolve(nodes, graphOut, nodes[t].inputs[0], t)
      else Resolve(nodes, graphOut, x, t)
  {
    if nodes[t].opType == "Identity" {
      ProducerOfOwnOutput(nodes, t, nodes[t].outputs[0]);
    }
    match ProducerIndex(nodes, x)
    case None =>
    case Some(p) =>
      if p < t && Elidable(nodes[p], graphOut) && x == nodes[p].outputs[0] {
        ResolveShape(nodes, graphOut, nodes[p].inputs[0], p);
      }
  }

  /** The reference result of `remove_identity_nodes`: every node reads the
      resolved names, and the elidable Identities are dropped. */
  function Rewired(g: Graph): (r: seq<Node>)
    ensures OnlyInputsDiffer(g.nodes, r)
  {
    seq(|g.nodes|, k requires 0 <= k < |g.nodes| =>
      g.nodes[k].(inputs := seq(|g.nodes[k].inputs|, i requires 0 <= i < |g.nodes[k].inputs| =>
        Resolve(g.nodes, OutputNames(g), g.nodes[k].inputs[i], |g.nodes|))))
  }

  function ElidedPositions(g: Graph): set<nat> {
    set k | 0 <= k < |g.nodes| && Elidable(g.nodes[k], OutputNames(g))
  }

  /** What the reference resolution relies on: schema arities, one producer
      per name, and each elided Identity's input produced before it. */
  predicate ResolvableChains(orig: seq<Node>, graphOut: set<string>) {
    SchemaArity(orig) && UniqueProducers(orig) && ElidedInputsPrecede(orig, graphOut)
  }

  /** The scan keeps every input equal to its resolution up to the scan position. */
  lemma {:induction false} IdentityScanResolves(
    orig: seq<Node>, graphOut: set<string>, cur: seq<Node>, t: nat, removed: set<nat>)
    requires ResolvableChains(orig, graphOut) && t <= |orig| && ScanResolved(orig, graphOut, cur, t)
    ensures ResolvedUpTo(orig, graphOut, IdentityScan(cur, graphOut, t, removed).0, |orig|)
    decreases |orig| - t, 1
  {
    if t < |orig| {
      IdentityScanResolvesStep(orig, graphOut, cur, t, removed);
    } else {
      assert IdentityScan(cur, graphOut, t, removed).0 == cur;
    }
  }

  /** The inductive case: the scan's step at `t`, then the rest of the scan. */
  lemma {:induction false} IdentityScanResolvesStep(
    orig: seq<Node>, graphOut: set<string>, cur: seq<Node>, t: nat, removed: set<nat>)
    requires ResolvableChains(orig, graphOut) && t < |orig| && ScanResolved(orig, graphOut, cur, t)
    ensures ResolvedUpTo(orig, graphOut, IdentityScan(cur, graphOut, t, removed).0, |orig|)
    decreases |orig| - t, 0
  {
    var cur', removed' := IdentityScanStep(cur, graphOut, t, removed);
    IdentityStepResolves(orig, graphOut, cur, t, cur');
    assert ScanResolved(orig, graphOut, cur', t + 1);
    IdentityScanResolves(orig, graphOut, cur', t + 1, removed');
  }

  /** The scan's state at position `t`: only inputs rewired, arities kept,
      and every input resolved up to `t`. */
  predicate ScanResolved(orig: seq<Node>, graphOut: set<string>, cur: seq<Node>, t: nat) {
    OnlyInputsDiffer(orig, cur) && SchemaArity(cur) && ResolvedUpTo(orig, graphOut, cur, t)
  }

  /** Every input of `cur` is the resolution, up to `t`, of the original input. */
  predicate ResolvedUpTo(orig: seq<Node>, graphOut: set<string>, cur: seq<Node>, t: nat) {
    && |cur| == |orig|
    && forall j, i :: 0 <= j < |cur| && 0 <= i < |cur[j].inputs| && i < |orig[j].inputs| ==>
         cur[j].inputs[i] == Resolve(orig, graphOut, orig[j].inputs[i], t)
  }

  /** One step of the scan advances the resolution by one position. */
  lemma IdentityStepResolves(orig: seq<Node>, graphOut: set<string>, cur: seq<Node>, t: nat, cur': seq<Node>)
    requires ResolvableChains(orig, graphOut)
    requires t < |orig| && OnlyInputsDiffer(orig, cur) && SchemaArity(cur)
    requires ResolvedUpTo(orig, graphOut, cur, t)
    requires cur' == if Elidable(cur[t], graphOut) then ReplaceInputOfAllNodes(cur, cur[t].outputs[0], cur[t].inputs[0]) else cur
    ensures OnlyInputsDiffer(orig, cur') && ResolvedUpTo(orig, graphOut, cur', t + 1)
  {
    var n := cur[t];
    assert n.outputs == orig[t].outputs && n.opType == orig[t].opType;
    assert OnlyInputsDiffer(orig, cur');
    forall j, i | 0 <= j < |cur'| && 0 <= i < |cur'[j].inputs|
      ensures cur'[j].inputs[i] == Resolve(orig, graphOut, orig[j].inputs[i], t + 1)
    {
      ResolveStep(orig, graphOut, orig[j].inputs[i], t);
    }
  }

  /** `remove_identity_nodes` rewires every reader past the elided Identity
      chains and drops those Identities, as the reference definition says. */
  lemma RemoveIdentityNodesIsRewired(g: Graph)
    requires SchemaArity(g.nodes) && UniqueProducers(g.nodes) && ElidedInputsPrecede(g.nodes, OutputNames(g))
    ensures RemoveIdentityNodes(g).nodes == Keep(Rewired(g), ElidedPositions(g))
  {
    var gout := OutputNames(g);
    assert ScanResolved(g.nodes, gout, g.nodes, 0);
    IdentityScanResolves(g.nodes, gout, g.nodes, 0, {});
    IdentityScanElides(g.nodes, gout, 0, {});
    var (nodes, removed) := IdentityScan(g.nodes, gout, 0, {});
    var w := Rewired(g);
    assert ResolvedUpTo(g.nodes, gout, nodes, |g.nodes|);
    forall k | 0 <= k < |nodes|
      ensures nodes[k] == w[k]
    {
      assert nodes[k] == g.nodes[k].(inputs := nodes[k].inputs);
      assert nodes[k].inputs == w[k].inputs;
    }
    assert nodes == w;
    assert removed == ElidedPositions(g);
  }

  /** The chains of elidable Identities from position `t` on are acyclic:
      each one's input ranks below its output. */
  predicate RankedIdentities(nodes: seq<Node>, graphOut: set<string>, rank: string -> nat, t: nat) {
    forall u :: t <= u < |nodes| && Elidable(nodes[u], graphOut) && |nodes[u].inputs| >= 1 ==>
      rank(nodes[u].inputs[0]) < rank(nodes[u].outputs[0])
  }

  /** After `remove_identity_nodes`, no node reads the output of an elided
      Identity.  Neither node order nor unique producers matter: each elision
      renames every reader to the Identity's current input, and acyclic
      chains keep that input distinct from the output. */
  lemma RemoveIdentityNodesLeavesNoDanglingReader(g: Graph, rank: string -> nat, p: nat)
    requires SchemaArity(g.nodes) && RankedIdentities(g.nodes, OutputNames(g), rank, 0)
    requires p < |g.nodes| && Elidable(g.nodes[p], OutputNames(g))
    ensures Unread(RemoveIdentityNodes(g).nodes, g.nodes[p].outputs[0])
  {
    var gout := OutputNames(g);
    IdentityScanUnreadsElided(g.nodes, gout, rank, 0, {}, p);
    var (nodes, removed) := IdentityScan(g.nodes, gout, 0, {});
    var kept := Keep(nodes, removed);
    var idx := KeptIndices(|nodes|, removed, 0);
    assert RemoveIdentityNodes(g).nodes == kept;
    forall j, i | 0 <= j < |kept| && 0 <= i < |kept[j].inputs|
      ensures kept[j].inputs[i] != g.nodes[p].outputs[0]
    {
      assert kept[j] == nodes[idx[j]];
    }
  }

  /** From the step at `k` on, nothing reads the output of the elided Identity at `k`. */
  lemma {:induction false} IdentityScanUnreadsElided(
    cur: seq<Node>, graphOut: set<string>, rank: string -> nat, t: nat, removed: set<nat>, k: nat)
    requires t <= k < |cur| && SchemaArity(cur) && Elidable(cur[k], graphOut)
    requires RankedIdentities(cur, graphOut, rank, t)
    ensures Unread(IdentityScan(cur, graphOut, t, removed).0, cur[k].outputs[0])
    decreases |cur| - t, 1
  {
    if t == k {
      IdentityScanUnreadsHere(cur, graphOut, t, removed);
    } else {
      IdentityScanUnreadsPast(cur, graphOut, rank, t, removed, k);
    }
  }

  /** The elision at `t` itself, then the rest of the scan. */
  lemma IdentityScanUnreadsHere(cur: seq<Node>, graphOut: set<string>, t: nat, removed: set<nat>)
    requires t < |cur| && SchemaArity(cur) && Elidable(cur[t], graphOut)
    requires cur[t].inputs[0] != cur[t].outputs[0]
    ensures Unread(IdentityScan(cur, graphOut, t, removed).0, cur[t].outputs[0])
  {
    var cur', removed' := IdentityScanStep(cur, graphOut, t, removed);
    ElisionUnreadsOutput(cur, cur[t].outputs[0], cur[t].inputs[0], cur');
    IdentityScanKeepsUnread(cur', graphOut, t + 1, removed', cur[t].outputs[0]);
  }

  /** A step before `k`, then the rest of the scan. */
  lemma {:induction false} IdentityScanUnreadsPast(
    cur: seq<Node>, graphOut: set<string>, rank: string -> nat, t: nat, removed: set<nat>, k: nat)
    requires t < k < |cur| && SchemaArity(cur) && Elidable(cur[k], graphOut)
    requires RankedIdentities(cur, graphOut, rank, t)
    ensures Unread(IdentityScan(cur, graphOut, t, removed).0, cur[k].outputs[0])
    decreases |cur| - t, 0
  {
    var cur', removed' := IdentityScanStep(cur, graphOut, t, removed);
    IdentityStepKeepsRanked(cur, graphOut, rank, t, cur');
    assert cur'[k].outputs == cur[k].outputs && cur'[k].opType == cur[k].opType;
    IdentityScanUnreadsElided(cur', graphOut, rank, t + 1, removed', k);
  }

  /** Renaming every read of `o` to a different name leaves `o` unread. */
  lemma ElisionUnreadsOutput(cur: seq<Node>, o: string, c: string, cur': seq<Node>)
    requires c != o && cur' == ReplaceInputOfAllNodes(cur, o, c)
    ensures Unread(cur', o)
  {
    forall m, q | 0 <= m < |cur'| && 0 <= q < |cur'[m].inputs|
      ensures cur'[m].inputs[q] != o
    {
      ReplaceInputSlot(cur, o, c, m, q);
    }
  }

  /** The scan renames a name only to one some node reads, so an unread name stays unread. */
  lemma {:induction false} IdentityScanKeepsUnread(
    cur: seq<Node>, graphOut: set<string>, t: nat, removed: set<nat>, x: string)
    requires t <= |cur| && SchemaArity(cur) && Unread(cur, x)
    ensures Unread(IdentityScan(cur, graphOut, t, removed).0, x)
    decreases |cur| - t
  {
    if t < |cur| {
      var cur', removed' := IdentityScanStep(cur, graphOut, t, removed);
      if Elidable(cur[t], graphOut) {
        assert cur[t].inputs[0] != x;
        assert cur' == ReplaceInputOfAllNodes(cur, cur[t].outputs[0], cur[t].inputs[0]);
        RenameKeepsUnread(cur, cur', x, cur[t].inputs[0]);
      }
      IdentityScanKeepsUnread(cur', graphOut, t + 1, removed', x);
    }
  }

  /** An elision lowers the rank of what its readers read, so the chains ahead stay ranked. */
  lemma IdentityStepKeepsRanked(cur: seq<Node>, graphOut: set<string>, rank: string -> nat, t: nat, cur': seq<Node>)
    requires t < |cur| && SchemaArity(cur) && RankedIdentities(cur, graphOut, rank, t)
    requires cur' == if Elidable(cur[t], graphOut) then ReplaceInputOfAllNodes(cur, cur[t].outputs[0], cur[t].inputs[0]) else cur
    ensures RankedIdentities(cur', graphOut, rank, t + 1)
  {
    if Elidable(cur[t], graphOut) {
      var o, c := cur[t].outputs[0], cur[t].inputs[0];
      forall u | t + 1 <= u < |cur'| && Elidable(cur'[u], graphOut) && |cur'[u].inputs| >= 1
        ensures rank(cur'[u].inputs[0]) < rank(cur'[u].outputs[0])
      {
        ReplaceInputSlot(cur, o, c, u, 0);
        assert cur'[u].outputs == cur[u].outputs && Elidable(cur[u], graphOut);
      }
    }
  }

  // ---------------------------------------------------------------------------
  // int32 casts of graph inputs

  /** No node of `nodes` reads `x`. */
  predicate Unread(nodes: seq<Node>, x: string) {
    forall m, q :: 0 <= m < |nodes| && 0 <= q < |nodes[m].inputs| ==> nodes[m].inputs[q] != x
  }

  /** The loop of `remove_cast_int32` changes nothing when no removed Cast's output is read. */
  lemma {:induction false} DropInt32CastsUnchanged(
    nodes: seq<Node>, name: string, readers: seq<nat>, i: nat, removed: set<nat>)
    requires SchemaArity(nodes)
    requires i <= |readers| && forall j :: 0 <= j < |readers| ==> readers[j] < |nodes|
    requires forall j :: i <= j < |readers| && CastsToInt32(nodes[readers[j]]) ==> Unread(nodes, nodes[readers[j]].outputs[0])
    ensures DropInt32Casts(nodes, name, readers, i, removed).0 == nodes
    decreases |readers| - i
  {
    if i < |readers| {
      var n := nodes[readers[i]];
      if CastsToInt32(n) {
        ReplaceInputAbsent(nodes, n.outputs[0], name);
      }
      DropInt32CastsUnchanged(nodes, name, readers, i + 1, if CastsToInt32(n) then removed + {readers[i]} else removed);
    }
  }

  /** The loop only ever introduces `name`, so a name other than `name` that
      nobody reads stays unread. */
  lemma {:induction false} DropInt32CastsKeepsUnread(
    nodes: seq<Node>, name: string, readers: seq<nat>, i: nat, removed: set<nat>, x: string)
    requires SchemaArity(nodes)
    requires i <= |readers| && forall j :: 0 <= j < |readers| ==> readers[j] < |nodes|
    requires x != name && Unread(nodes, x)
    ensures Unread(DropInt32Casts(nodes, name, readers, i, removed).0, x)
    decreases |readers| - i
  {
    if i < |readers| {
      var nodes', removed' := DropInt32CastsStep(nodes, name, readers, i, removed);
      RenameKeepsUnread(nodes, nodes', x, name);
      DropInt32CastsKeepsUnread(nodes', name, readers, i + 1, removed', x);
    }
  }

  /** Renaming inputs to `to` keeps a name other than `to` unread. */
  lemma RenameKeepsUnread(nodes: seq<Node>, nodes': seq<Node>, x: string, to: string)
    requires x != to && Unread(nodes, x)
    requires nodes' == nodes || exists from :: nodes' == ReplaceInputOfAllNodes(nodes, from, to)
    ensures Unread(nodes', x)
  {
    if nodes' != nodes {
      var from :| nodes' == ReplaceInputOfAllNodes(nodes, from, to);
      forall m, q | 0 <= m < |nodes'| && 0 <= q < |nodes'[m].inputs|
        ensures nodes'[m].inputs[q] != x
      {
        assert nodes'[m].inputs == Rename(nodes[m].inputs, from, to);
      }
    }
  }

  /** After the loop, nothing reads the output of a removed Cast (unless that
      output is `name` itself). */
  lemma {:induction false} DropInt32CastsRewires(
    nodes: seq<Node>, name: string, readers: seq<nat>, i: nat, removed: set<nat>, j: nat)
    requires SchemaArity(nodes)
    requires i <= j < |readers| && forall j :: 0 <= j < |readers| ==> readers[j] < |nodes|
    requires CastsToInt32(nodes[readers[j]]) && nodes[readers[j]].outputs[0] != name
    ensures Unread(DropInt32Casts(nodes, name, readers, i, removed).0, nodes[readers[j]].outputs[0])
    decreases |readers| - i
  {
    if i == j {
      DropInt32CastsRewiresHere(nodes, name, readers, i, removed);
    } else {
      var nodes', removed' := DropInt32CastsStep(nodes, name, readers, i, removed);
      assert nodes'[readers[j]].outputs == nodes[readers[j]].outputs;
      DropInt32CastsRewires(nodes', name, readers, i + 1, removed', j);
    }
  }

  /** The removal of the `i`-th reader leaves its output unread for good. */
  lemma DropInt32CastsRewiresHere(nodes: seq<Node>, name: string, readers: seq<nat>, i: nat, removed: set<nat>)
    requires SchemaArity(nodes)
    requires i < |readers| && forall j :: 0 <= j < |readers| ==> readers[j] < |nodes|
    requires CastsToInt32(nodes[readers[i]]) && nodes[readers[i]].outputs[0] != name
    ensures Unread(DropInt32Casts(nodes, name, readers, i, removed).0, nodes[readers[i]].outputs[0])
  {
    var x := nodes[readers[i]].outputs[0];
    var nodes', removed' := DropInt32CastsStep(nodes, name, readers, i, removed);
    assert Unread(nodes', x);
    DropInt32CastsKeepsUnread(nodes', name, readers, i + 1, removed', x);
  }

  /** Every input that read the output of a removed Cast reads `name` once the
      loop is over: the Cast's readers are redirected to what the Cast read. */
  lemma {:induction false} DropInt32CastsRedirects(
    nodes: seq<Node>, name: string, readers: seq<nat>, i: nat, removed: set<nat>, j: nat, m: nat, q: nat)
    requires SchemaArity(nodes)
    requires i <= j < |readers| && forall j :: 0 <= j < |readers| ==> readers[j] < |nodes|
    requires CastsToInt32(nodes[readers[j]]) && nodes[readers[j]].outputs[0] != name
    requires m < |nodes| && q < |nodes[m].inputs| && nodes[m].inputs[q] == nodes[readers[j]].outputs[0]
    ensures var r := DropInt32Casts(nodes, name, readers, i, removed).0;
      q < |r[m].inputs| && r[m].inputs[q] == name
    decreases |readers| - i
  {
    var x := nodes[readers[j]].outputs[0];
    var c := nodes[readers[i]];
    var nodes', removed' := DropInt32CastsStep(nodes, name, readers, i, removed);
    if CastsToInt32(c) {
      ReplaceInputSlot(nodes, c.outputs[0], name, m, q);
    }
    if nodes'[m].inputs[q] == name {
      DropInt32CastsKeepsName(nodes', name, readers, i + 1, removed', m, q);
    } else {
      assert nodes'[m].inputs[q] == x && i < j;
      DropInt32CastsRedirects(nodes', name, readers, i + 1, removed', j, m, q);
    }
  }

  /** The loop only renames other names to `name`, so an input reading `name` keeps reading it. */
  lemma {:induction false} DropInt32CastsKeepsName(
    nodes: seq<Node>, name: string, readers: seq<nat>, i: nat, removed: set<nat>, m: nat, q: nat)
    requires SchemaArity(nodes)
    requires i <= |readers| && forall j :: 0 <= j < |readers| ==> readers[j] < |nodes|
    requires m < |nodes| && q < |nodes[m].inputs| && nodes[m].inputs[q] == name
    ensures var r := DropInt32Casts(nodes, name, readers, i, removed).0;
      q < |r[m].inputs| && r[m].inputs[q] == name
    decreases |readers| - i
  {
    if i < |readers| {
      var c := nodes[readers[i]];
      var nodes', removed' := DropInt32CastsStep(nodes, name, readers, i, removed);
      if CastsToInt32(c) {
        ReplaceInputSlot(nodes, c.outputs[0], name, m, q);
      }
      DropInt32CastsKeepsName(nodes', name, readers, i + 1, removed', m, q);
    }
  }

  /** What one input slot reads after a rename. */
  lemma ReplaceInputSlot(nodes: seq<Node>, from: string, to: string, m: nat, q: nat)
    requires m < |nodes| && q < |nodes[m].inputs|
    ensures var r := ReplaceInputOfAllNodes(nodes, from, to);
      q < |r[m].inputs| && r[m].inputs[q] == if nodes[m].inputs[q] == from then to else nodes[m].inputs[q]
  {
  }

  /** `remove_cast_int32` leaves no reader of a removed Cast's output. */
  lemma RemoveCastInt32LeavesNoDanglingReader(g: Graph, name: string, k: nat)
    requires SchemaArity(g.nodes) && name != ""
    requires k < |g.nodes| && name in g.nodes[k].inputs && CastsToInt32(g.nodes[k])
    requires g.nodes[k].outputs[0] != name
    ensures RemoveCastInt32(g, name).Ok?
    ensures Unread(RemoveCastInt32(g, name).value.nodes, g.nodes[k].outputs[0])
  {
    var readers := Consumers(g.nodes, name);
    assert k in readers;
    var j :| 0 <= j < |readers| && readers[j] == k;
    DropInt32CastsRewires(g.nodes, name, readers, 0, {}, j);
    var (nodes, removed) := DropInt32Casts(g.nodes, name, readers, 0, {});
    var kept := Keep(nodes, removed);
    var idx := KeptIndices(|nodes|, removed, 0);
    forall m, q | 0 <= m < |kept| && 0 <= q < |kept[m].inputs|
      ensures kept[m].inputs[q] != g.nodes[k].outputs[0]
    {
      assert kept[m] == nodes[idx[m]];
    }
  }

  /** Casting a tensor to int32 and then removing the int32 Casts that read it
      gives back the original graph, as long as the tensor was not itself the
      output of a Cast, no int32 Cast already read it and the int32 name was
      unused. */
  lemma CastThenRemoveRoundTrip(g: Graph, name: string)
    requires SchemaArity(g.nodes) && name != ""
    requires ProducerIndex(g.nodes, name).None? || g.nodes[ProducerIndex(g.nodes, name).value].opType != "Cast"
    requires forall k :: 0 <= k < |g.nodes| && name in g.nodes[k].inputs ==> !CastsToInt32(g.nodes[k])
    requires Unread(g.nodes, Int32Name(name))
    ensures var h := CastInputToInt32(g, name).graph;
      SchemaArity(h.nodes) && RemoveCastInt32(h, name) == Ok(g)
  {
    var c := CastInputToInt32(g, name);
    var h := c.graph;
    RoundTripDropsAppendedCast(g, name, h, Consumers(h.nodes, name));
    assert RemoveCastInt32(h, name) == Ok(h.(nodes := Keep(h.nodes, {|g.nodes|})));
    KeepDropLast(g.nodes, c.node);
    assert h.(nodes := g.nodes) == g;
  }

  /** In the round trip, the loop of `remove_cast_int32` renames nothing and
      removes only the appended Cast. */
  lemma RoundTripDropsAppendedCast(g: Graph, name: string, h: Graph, readers: seq<nat>)
    requires SchemaArity(g.nodes) && name != ""
    requires ProducerIndex(g.nodes, name).None? || g.nodes[ProducerIndex(g.nodes, name).value].opType != "Cast"
    requires forall k :: 0 <= k < |g.nodes| && name in g.nodes[k].inputs ==> !CastsToInt32(g.nodes[k])
    requires Unread(g.nodes, Int32Name(name))
    requires h == CastInputToInt32(g, name).graph && readers == Consumers(h.nodes, name)
    ensures SchemaArity(h.nodes) && |readers| > 0
    ensures DropInt32Casts(h.nodes, name, readers, 0, {}) == (h.nodes, {|g.nodes|})
  {
    var n := |g.nodes|;
    AppendedCastFacts(g, name);
    OnlyAppendedCastIsRemoved(g, name, h, readers);
    DropInt32CastsUnchanged(h.nodes, name, readers, 0, {});
    DropInt32CastsRemovesOnly(h.nodes, name, readers, n);
  }

  /** When exactly one reader casts to int32, the loop removes exactly that one. */
  lemma DropInt32CastsRemovesOnly(nodes: seq<Node>, name: string, readers: seq<nat>, n: nat)
    requires SchemaArity(nodes) && forall j :: 0 <= j < |readers| ==> readers[j] < |nodes|
    requires forall x :: x in readers && x < |nodes| && CastsToInt32(nodes[x]) <==> x == n
    ensures DropInt32Casts(nodes, name, readers, 0, {}).1 == {n}
  {
    DropInt32CastsRemoves(nodes, name, readers, 0, {});
    assert readers[0..] == readers;
    var removed := DropInt32Casts(nodes, name, readers, 0, {}).1;
    forall x ensures x in removed <==> x == n {
      if x in removed {
        assert x in readers && x < |nodes| && CastsToInt32(nodes[x]);
      }
      if x == n {
        assert x in readers && x < |nodes| && CastsToInt32(nodes[x]);
      }
    }
  }

  /** The Cast `cast_input_to_int32` appends reads `name`, casts to int32, and
      writes a name nobody reads. */
  lemma AppendedCastFacts(g: Graph, name: string)
    requires SchemaArity(g.nodes) && name != ""
    requires ProducerIndex(g.nodes, name).None? || g.nodes[ProducerIndex(g.nodes, name).value].opType != "Cast"
    requires Unread(g.nodes, Int32Name(name))
    ensures var h := CastInputToInt32(g, name).graph;
      && |h.nodes| == |g.nodes| + 1 && SchemaArity(h.nodes)
      && h.nodes[|g.nodes|] == CastInputToInt32(g, name).node
      && CastsToInt32(h.nodes[|g.nodes|]) && h.nodes[|g.nodes|].inputs == [name]
      && h.nodes[|g.nodes|].outputs == [Int32Name(name)]
      && Unread(h.nodes, Int32Name(name))
  {
    var c := CastInputToInt32(g, name);
    var h := c.graph;
    assert c.node.attrs[0] in c.node.attrs;
    assert Int32Name(name) != name by {
      assert |Int32Name(name)| == |name| + 6;
    }
  }

  /** Among the readers of `name` after the cast, only the appended Cast casts to int32. */
  lemma OnlyAppendedCastIsRemoved(g: Graph, name: string, h: Graph, readers: seq<nat>)
    requires SchemaArity(g.nodes) && name != ""
    requires ProducerIndex(g.nodes, name).None? || g.nodes[ProducerIndex(g.nodes, name).value].opType != "Cast"
    requires forall k :: 0 <= k < |g.nodes| && name in g.nodes[k].inputs ==> !CastsToInt32(g.nodes[k])
    requires Unread(g.nodes, Int32Name(name))
    requires h == CastInputToInt32(g, name).graph && readers == Consumers(h.nodes, name)
    ensures forall j :: 0 <= j < |readers| ==> readers[j] < |h.nodes|
    ensures forall j :: 0 <= j < |readers| && CastsToInt32(h.nodes[readers[j]]) ==>
      Unread(h.nodes, h.nodes[readers[j]].outputs[0])
    ensures forall x :: x in readers && x < |h.nodes| && CastsToInt32(h.nodes[x]) <==> x == |g.nodes|
  {
    var n := |g.nodes|;
    AppendedCastFacts(g, name);
    assert name in h.nodes[n].inputs;
    assert n in readers;
    assert forall k :: 0 <= k < n ==> h.nodes[k] == g.nodes[k];
    assert forall j :: 0 <= j < |readers| && CastsToInt32(h.nodes[readers[j]]) ==> readers[j] == n;
  }

  // ---------------------------------------------------------------------------
  // Useless Cast and Reshape removal

  /** Every node the pass decides to remove is listed. */
  lemma {:induction false} CandidatesComplete(nodes: seq<Node>, kind: UselessKind, inference: Inference, i: nat, k: nat)
    requires i <= k < |nodes| && Candidates(nodes, kind, inference, i).Ok?
    requires Decide(kind, inference, nodes[k]) == Ok(true)
    ensures k in Candidates(nodes, kind, inference, i).value
    decreases |nodes| - i
  {
    if i < k {
      CandidatesComplete(nodes, kind, inference, i + 1, k);
    }
  }

  /** A node the pass does not decide to remove survives, with at most the
      tensor names it reads and writes changed. */
  lemma RemoveUselessKeepsOthers(g: Graph, kind: UselessKind, inference: Inference, k: nat)
    requires k < |g.nodes| && Decide(kind, inference, g.nodes[k]) == Ok(false)
    requires RemoveUseless(g, kind, inference).Ok?
    ensures var r := RemoveUseless(g, kind, inference).value;
      exists j :: 0 <= j < |r.nodes| &&
        r.nodes[j] == g.nodes[k].(inputs := r.nodes[j].inputs, outputs := r.nodes[j].outputs)
  {
    var r := RemoveUseless(g, kind, inference).value;
    var candidates := Candidates(g.nodes, kind, inference, 0).value;
    if |candidates| == 0 {
      assert r.nodes[k] == g.nodes[k];
    } else {
      var (nodes, removed) := RemoveWithBoundary(g.nodes, candidates, 0, InputNames(g), OutputNames(g), {});
      assert k !in removed;
      KeepKeeps(nodes, removed, k);
      var j :| 0 <= j < |Keep(nodes, removed)| && Keep(nodes, removed)[j] == nodes[k];
      assert r.nodes[j] == g.nodes[k].(inputs := r.nodes[j].inputs, outputs := r.nodes[j].outputs);
    }
  }

  /** Reads a graph input and writes a graph output: the nodes the boundary rule keeps. */
  predicate MeetsBoundary(n: Node, graphIn: set<string>, graphOut: set<string>) {
    Meets(n.outputs, graphOut) && Meets(n.inputs, graphIn)
  }

  /** No node writes a tensor named like a graph input. */
  predicate WritesNoGraphInput(nodes: seq<Node>, graphIn: set<string>) {
    forall m, q :: 0 <= m < |nodes| && 0 <= q < |nodes[m].outputs| ==> nodes[m].outputs[q] !in graphIn
  }

  /** One application of the boundary rule neither makes a node write a graph
      input nor detaches a kept node from the graph's inputs or outputs. */
  lemma BoundaryStepPreserves(nodes: seq<Node>, k: nat, graphIn: set<string>, graphOut: set<string>, s: nat)
    requires k < |nodes| && |nodes[k].inputs| >= 1 && |nodes[k].outputs| == 1
    requires graphIn !! graphOut && WritesNoGraphInput(nodes, graphIn)
    requires s < |nodes| && MeetsBoundary(nodes[s], graphIn, graphOut)
    ensures var r := BoundaryStep(nodes, k, graphIn, graphOut).0;
      WritesNoGraphInput(r, graphIn) && MeetsBoundary(r[s], graphIn, graphOut)
  {
    var r := BoundaryStep(nodes, k, graphIn, graphOut).0;
    var n := nodes[k];
    BoundaryStepEffect(nodes, k, graphIn, graphOut);
    var qo :| 0 <= qo < |nodes[s].outputs| && nodes[s].outputs[qo] in graphOut;
    var qi :| 0 <= qi < |nodes[s].inputs| && nodes[s].inputs[qi] in graphIn;
    if Meets(n.outputs, graphOut) {
      assert n.outputs[0] in graphOut;
    }
    assert r[s].outputs[qo] in graphOut;
    assert r[s].inputs[qi] in graphIn;
  }

  /** The rule keeps its own WritesNoGraphInput invariant even when nothing is kept. */
  lemma BoundaryStepKeepsInvariant(nodes: seq<Node>, k: nat, graphIn: set<string>, graphOut: set<string>)
    requires k < |nodes| && |nodes[k].inputs| >= 1 && |nodes[k].outputs| == 1
    requires graphIn !! graphOut && WritesNoGraphInput(nodes, graphIn)
    ensures WritesNoGraphInput(BoundaryStep(nodes, k, graphIn, graphOut).0, graphIn)
  {
    var n := nodes[k];
    BoundaryStepEffect(nodes, k, graphIn, graphOut);
    if Meets(n.outputs, graphOut) {
      assert n.outputs[0] in graphOut;
    }
  }

  /** The candidates are valid positions of single-output nodes with an input, in increasing order. */
  predicate CandidateShape(nodes: seq<Node>, candidates: seq<nat>) {
    && (forall j :: 0 <= j < |candidates| ==>
          candidates[j] < |nodes| && |nodes[candidates[j]].inputs| >= 1 && |nodes[candidates[j]].outputs| == 1)
    && (forall j, j' :: 0 <= j < j' < |candidates| ==> candidates[j] < candidates[j'])
  }

  lemma CandidateShapeKept(a: seq<Node>, b: seq<Node>, candidates: seq<nat>)
    requires CandidateShape(a, candidates) && OnlyNamesDiffer(a, b)
    ensures CandidateShape(b, candidates)
  {
  }

  /** Every candidate before the `i`-th that was not removed reads a graph input and writes a graph output. */
  predicate SkippedMeet(
    nodes: seq<Node>, candidates: seq<nat>, i: nat, removed: set<nat>, graphIn: set<string>, graphOut: set<string>)
  {
    forall j :: 0 <= j < i && j < |candidates| && candidates[j] < |nodes| && candidates[j] !in removed ==>
      MeetsBoundary(nodes[candidates[j]], graphIn, graphOut)
  }

  /** What holds before the `i`-th round of the boundary loop. */
  predicate LoopInvariant(
    nodes: seq<Node>, candidates: seq<nat>, i: nat, removed: set<nat>, graphIn: set<string>, graphOut: set<string>)
  {
    && i <= |candidates| && CandidateShape(nodes, candidates)
    && graphIn !! graphOut && WritesNoGraphInput(nodes, graphIn)
    && (forall j :: i <= j < |candidates| ==> candidates[j] !in removed)
    && SkippedMeet(nodes, candidates, i, removed, graphIn, graphOut)
  }

  /** Every candidate the loop skips reads a graph input and writes a graph
      output once the loop is over. */
  lemma {:induction false} RemoveWithBoundaryKeepsBoundary(
    nodes: seq<Node>, candidates: seq<nat>, i: nat, graphIn: set<string>, graphOut: set<string>, removed: set<nat>)
    requires LoopInvariant(nodes, candidates, i, removed, graphIn, graphOut)
    ensures SkippedMeet(RemoveWithBoundary(nodes, candidates, i, graphIn, graphOut, removed).0, candidates, |candidates|,
                        RemoveWithBoundary(nodes, candidates, i, graphIn, graphOut, removed).1, graphIn, graphOut)
    decreases |candidates| - i, 1
  {
    if i < |candidates| {
      KeepsBoundaryStep(nodes, candidates, i, graphIn, graphOut, removed);
    } else {
      assert RemoveWithBoundary(nodes, candidates, i, graphIn, graphOut, removed) == (nodes, removed);
    }
  }

  /** The inductive case: one round of the loop, then the rest of it. */
  lemma {:induction false} KeepsBoundaryStep(
    nodes: seq<Node>, candidates: seq<nat>, i: nat, graphIn: set<string>, graphOut: set<string>, removed: set<nat>)
    requires i < |candidates| && LoopInvariant(nodes, candidates, i, removed, graphIn, graphOut)
    ensures SkippedMeet(RemoveWithBoundary(nodes, candidates, i, graphIn, graphOut, removed).0, candidates, |candidates|,
                        RemoveWithBoundary(nodes, candidates, i, graphIn, graphOut, removed).1, graphIn, graphOut)
    decreases |candidates| - i, 0
  {
    var nodes', removed' := BoundaryLoopStep(nodes, candidates, i, graphIn, graphOut, removed);
    RemoveWithBoundaryKeepsBoundary(nodes', candidates, i + 1, graphIn, graphOut, removed');
  }

  /** One round of the loop keeps the loop invariant. */
  lemma BoundaryLoopStep(
    nodes: seq<Node>, candidates: seq<nat>, i: nat, graphIn: set<string>, graphOut: set<string>, removed: set<nat>)
    returns (nodes': seq<Node>, removed': set<nat>)
    requires i < |candidates| && LoopInvariant(nodes, candidates, i, removed, graphIn, graphOut)
    ensures LoopInvariant(nodes', candidates, i + 1, removed', graphIn, graphOut)
    ensures RemoveWithBoundary(nodes, candidates, i, graphIn, graphOut, removed)
         == RemoveWithBoundary(nodes', candidates, i + 1, graphIn, graphOut, removed')
    ensures var (step, drop) := BoundaryStep(nodes, candidates[i], graphIn, graphOut);
      nodes' == step && removed' == if drop then removed + {candidates[i]} else removed
  {
    var k := candidates[i];
    var drop;
    nodes', drop := BoundaryStep(nodes, k, graphIn, graphOut).0, BoundaryStep(nodes, k, graphIn, graphOut).1;
    removed' := if drop then removed + {k} else removed;
    BoundaryStepKeepsInvariant(nodes, k, graphIn, graphOut);
    CandidateShapeKept(nodes, nodes', candidates);
    forall j | 0 <= j < i + 1 && candidates[j] !in removed'
      ensures MeetsBoundary(nodes'[candidates[j]], graphIn, graphOut)
    {
      if j < i {
        BoundaryStepPreserves(nodes, k, graphIn, graphOut, candidates[j]);
      }
    }
  }

  /** Graph conditions under which the boundary rule behaves as designed:
      graph inputs and outputs are disjoint, no node writes a graph input, and
      every node the pass decides to remove has exactly one output. */
  predicate BoundaryWellFormed(g: Graph, kind: UselessKind, inference: Inference) {
    && InputNames(g) !! OutputNames(g)
    && WritesNoGraphInput(g.nodes, InputNames(g))
    && forall k :: 0 <= k < |g.nodes| && Decide(kind, inference, g.nodes[k]) == Ok(true) ==>
         |g.nodes[k].outputs| == 1
  }

  /** `n` is node `k` of `g` with renamed tensors, and if the pass decided to
      remove node `k`, `n` reads a graph input and writes a graph output. */
  predicate SurvivorOf(g: Graph, kind: UselessKind, inference: Inference, n: Node, k: nat)
    requires k < |g.nodes|
  {
    && n == g.nodes[k].(inputs := n.inputs, outputs := n.outputs)
    && (Decide(kind, inference, g.nodes[k]) == Ok(true) ==> MeetsBoundary(n, InputNames(g), OutputNames(g)))
  }

  /** Every node of the result is an original node with renamed tensors, and
      one the pass decided to remove survives only when it still reads a
      graph input and writes a graph output. */
  lemma RemoveUselessKeepsOnlyBoundary(g: Graph, kind: UselessKind, inference: Inference, r: Graph, m: nat)
    requires BoundaryWellFormed(g, kind, inference)
    requires RemoveUseless(g, kind, inference) == Ok(r)
    requires m < |r.nodes|
    ensures exists k :: 0 <= k < |g.nodes| && SurvivorOf(g, kind, inference, r.nodes[m], k)
  {
    var candidates := Candidates(g.nodes, kind, inference, 0).value;
    if |candidates| == 0 {
      assert r == g;
      if Decide(kind, inference, g.nodes[m]) == Ok(true) {
        CandidatesComplete(g.nodes, kind, inference, 0, m);
      }
      assert SurvivorOf(g, kind, inference, r.nodes[m], m);
    } else {
      BoundaryLoopStarts(g, kind, inference, candidates);
      var rw := RemoveWithBoundary(g.nodes, candidates, 0, InputNames(g), OutputNames(g), {});
      assert r.nodes == Keep(rw.0, rw.1);
      RemoveWithBoundaryKeepsBoundary(g.nodes, candidates, 0, InputNames(g), OutputNames(g), {});
      CandidateShapeKept(g.nodes, rw.0, candidates);
      KeptSurvivor(g, kind, inference, candidates, rw.0, rw.1, m);
    }
  }

  lemma KeptSurvivor(
    g: Graph, kind: UselessKind, inference: Inference, candidates: seq<nat>, nodes: seq<Node>, removed: set<nat>, m: nat)
    requires Candidates(g.nodes, kind, inference, 0) == Ok(candidates)
    requires OnlyNamesDiffer(g.nodes, nodes) && CandidateShape(nodes, candidates)
    requires SkippedMeet(nodes, candidates, |candidates|, removed, InputNames(g), OutputNames(g))
    requires m < |Keep(nodes, removed)|
    ensures exists k :: 0 <= k < |g.nodes| && SurvivorOf(g, kind, inference, Keep(nodes, removed)[m], k)
  {
    var idx := KeptIndices(|nodes|, removed, 0);
    var k := idx[m];
    assert Keep(nodes, removed)[m] == nodes[k];
    if Decide(kind, inference, g.nodes[k]) == Ok(true) {
      CandidatesComplete(g.nodes, kind, inference, 0, k);
      var j :| 0 <= j < |candidates| && candidates[j] == k;
      assert MeetsBoundary(nodes[candidates[j]], InputNames(g), OutputNames(g));
    }
    assert SurvivorOf(g, kind, inference, Keep(nodes, removed)[m], k);
  }

  /** A candidate that has not been removed and reads a graph input and
      writes a graph output is never removed by the rest of the loop, and it
      still meets both boundaries when the loop ends. */
  lemma {:induction false} BoundaryNodeNotRemoved(
    nodes: seq<Node>, candidates: seq<nat>, i: nat, graphIn: set<string>, graphOut: set<string>, removed: set<nat>, k: nat)
    requires LoopInvariant(nodes, candidates, i, removed, graphIn, graphOut)
    requires k < |nodes| && k !in removed && MeetsBoundary(nodes[k], graphIn, graphOut)
    ensures var r := RemoveWithBoundary(nodes, candidates, i, graphIn, graphOut, removed);
      k !in r.1 && MeetsBoundary(r.0[k], graphIn, graphOut)
    decreases |candidates| - i
  {
    if i == |candidates| {
      assert RemoveWithBoundary(nodes, candidates, i, graphIn, graphOut, removed) == (nodes, removed);
    } else {
      var c := candidates[i];
      var nodes', removed' := BoundaryLoopStep(nodes, candidates, i, graphIn, graphOut, removed);
      BoundaryStepPreserves(nodes, c, graphIn, graphOut, k);
      if c == k {
        assert !BoundaryStep(nodes, c, graphIn, graphOut).1;
      }
      assert k !in removed';
      BoundaryNodeNotRemoved(nodes', candidates, i + 1, graphIn, graphOut, removed', k);
    }
  }

  /** The keep branch of the boundary rule, for the whole pass: a node the
      pass decides to remove that reads a graph input and writes a graph
      output survives, with only its tensor names changed, and still meets
      both boundaries. */
  lemma RemoveUselessKeepsBoundaryNode(g: Graph, kind: UselessKind, inference: Inference, r: Graph, k: nat)
    requires BoundaryWellFormed(g, kind, inference)
    requires RemoveUseless(g, kind, inference) == Ok(r)
    requires k < |g.nodes| && Decide(kind, inference, g.nodes[k]) == Ok(true)
    requires MeetsBoundary(g.nodes[k], InputNames(g), OutputNames(g))
    ensures exists j :: 0 <= j < |r.nodes| && SurvivorOf(g, kind, inference, r.nodes[j], k)
  {
    var candidates := Candidates(g.nodes, kind, inference, 0).value;
    CandidatesComplete(g.nodes, kind, inference, 0, k);
    BoundaryLoopStarts(g, kind, inference, candidates);
    var rw := RemoveWithBoundary(g.nodes, candidates, 0, InputNames(g), OutputNames(g), {});
    assert r.nodes == Keep(rw.0, rw.1);
    BoundaryNodeNotRemoved(g.nodes, candidates, 0, InputNames(g), OutputNames(g), {}, k);
    KeptBoundaryNode(g, kind, inference, rw.0, rw.1, k);
  }

  /** In a well-formed graph the candidate list meets the loop invariant before the first round. */
  lemma BoundaryLoopStarts(g: Graph, kind: UselessKind, inference: Inference, candidates: seq<nat>)
    requires BoundaryWellFormed(g, kind, inference)
    requires Candidates(g.nodes, kind, inference, 0) == Ok(candidates)
    ensures LoopInvariant(g.nodes, candidates, 0, {}, InputNames(g), OutputNames(g))
  {
  }

  lemma KeptBoundaryNode(g: Graph, kind: UselessKind, inference: Inference, nodes: seq<Node>, removed: set<nat>, k: nat)
    requires OnlyNamesDiffer(g.nodes, nodes) && k < |g.nodes| && k !in removed
    requires MeetsBoundary(nodes[k], InputNames(g), OutputNames(g))
    ensures exists j :: 0 <= j < |Keep(nodes, removed)| && SurvivorOf(g, kind, inference, Keep(nodes, removed)[j], k)
  {
    KeepKeeps(nodes, removed, k);
    var j :| 0 <= j < |Keep(nodes, removed)| && Keep(nodes, removed)[j] == nodes[k];
    assert SurvivorOf(g, kind, inference, Keep(nodes, removed)[j], k);
  }


  /** The three-node example: Relu(X) -> t, Cast(t) -> Y, Neg(t) -> Z. */
  function ExampleNodes(): seq<Node> {
    [Node("Relu", "relu", ["X"], ["t"], [], ""),
     Node("Cast", "cast", ["t"], ["Y"], [], ""),
     Node("Neg", "neg", ["t"], ["Z"], [], "")]
  }

  /** Both `t` and `Y` are declared with the same element type. */
  function ExampleInference(): Inference {
    Inference(map["t" := 1, "Y" := 1], map[], map[])
  }

  lemma ExampleCandidates()
    ensures Candidates(ExampleNodes(), UselessCast, ExampleInference(), 0) == Ok([1])
  {
    var nodes, inference := ExampleNodes(), ExampleInference();
    assert InferredType(inference, "t") == Ok(Some(1)) && InferredType(inference, "Y") == Ok(Some(1));
    assert Decide(UselessCast, inference, nodes[2]) == Ok(false);
    assert Decide(UselessCast, inference, nodes[1]) == Ok(true);
    assert Decide(UselessCast, inference, nodes[0]) == Ok(false);
    var none: seq<nat> := [];
    assert none + none == none && [1] + none == [1] && none + [1] == [1];
    assert Candidates(nodes, UselessCast, inference, 3) == Ok([]);
    assert Candidates(nodes, UselessCast, inference, 2) == Ok([]);
    assert Candidates(nodes, UselessCast, inference, 1) == Ok([1]);
  }


  /** The rewired example, before the Cast is dropped. */
  function ExampleRewired(): seq<Node> {
    [Node("Relu", "relu", ["X"], ["Y"], [], ""),
     Node("Cast", "cast", ["Y"], ["Y"], [], ""),
     Node("Neg", "neg", ["Y"], ["Z"], [], "")]
  }

  lemma ExampleRemoval(graphIn: set<string>, graphOut: set<string>)
    requires "t" !in graphIn && "Y" in graphOut
    ensures RemoveWithBoundary(ExampleNodes(), [1], 0, graphIn, graphOut, {}) == (ExampleRewired(), {1})
  {
    var nodes := ExampleNodes();
    assert nodes[1].outputs[0] in graphOut;
    assert !Meets(nodes[1].inputs, graphIn);
    BoundaryStepEffect(nodes, 1, graphIn, graphOut);
    var step := BoundaryStep(nodes, 1, graphIn, graphOut);
    assert step.1;
    var r := ExampleRewired();
    forall m | 0 <= m < 3
      ensures step.0[m] == r[m]
    {
      assert Rename(nodes[m].inputs, "t", "Y") == r[m].inputs;
      assert Rename(nodes[m].outputs, "t", "Y") == r[m].outputs;
    }
    assert step.0 == r;
    var empty: set<nat> := {};
    assert empty + {1} == {1};
    assert RemoveWithBoundary(nodes, [1], 0, graphIn, graphOut, {}) == RemoveWithBoundary(step.0, [1], 1, graphIn, graphOut, {1});
    assert RemoveWithBoundary(step.0, [1], 1, graphIn, graphOut, {1}) == (step.0, {1});
  }

  lemma ExampleKeep()
    ensures Keep(ExampleRewired(), {1}) == [Node("Relu", "relu", ["X"], ["Y"], [], ""), Node("Neg", "neg", ["Y"], ["Z"], [], "")]
  {
    var none: seq<nat> := [];
    assert KeptIndices(3, {1}, 3) == none;
    assert KeptIndices(3, {1}, 2) == [2] + none;
    assert KeptIndices(3, {1}, 1) == none + [2];
    assert KeptIndices(3, {1}, 0) == [0] + [2];
  }

  /** The useless-Cast pass on the example, with X the graph input and Y
      and Z the graph outputs: the Cast goes, Relu writes `Y` and Neg reads
      it, so no node is left reading `t`. */
  lemma RemoveUselessCastRenamesEverywhere(g: Graph)
    requires g == Graph(ExampleNodes(), [ValueInfo("X", 1)], [ValueInfo("Y", 1), ValueInfo("Z", 1)], map[])
    ensures RemoveUselessCastNodes(g, Some(ExampleInference()))
         == Ok(g.(nodes := [Node("Relu", "relu", ["X"], ["Y"], [], ""), Node("Neg", "neg", ["Y"], ["Z"], [], "")]))
  {
    ExampleCandidates();
    assert g.outputs[0] in g.outputs;
    assert "Y" in OutputNames(g);
    assert forall v :: v in g.inputs ==> v.name == "X";
    ExampleRemoval(InputNames(g), OutputNames(g));
    ExampleKeep();
  }
}

=== FILE: fusion_gemmfastgelu.dfy ===
/** The `FusionGemmFastGelu` rule: a MatMul feeding a FastGelu, with a 2-D
    constant weight and an optional 1-D constant bias, is staged for
    replacement by a single GemmFastGelu node of the `com.microsoft` domain.

    The rule only stages edits; applying them to the graph belongs to the
    fusion driver.  The parent matcher, the safety check and the fresh node
    name come from `OnnxModel` and are parameters here. */
module FusionGemmFastGelu {
  import opened Base
  import opened OnnxGraph

  const FusedOpType: string := "GemmFastGelu"
  const SearchOpType: string := "FastGelu"
  /** The description argument the constructor hands to the `Fusion` base class. */
  const Description: string := "GemmFastGelu"
  const MicrosoftDomain: string := "com.microsoft"

  /** A fusion rule together with the edits it has staged so far. */
  datatype Fusion = Fusion(
    fusedOpType: string,
    searchOpTypes: seq<string>,
    description: string,          // the constructor's description argument
    thisGraphName: string,
    nodesToRemove: seq<Node>,
    nodesToAdd: seq<Node>,
    nodeNameToGraphName: map<string, string>)

  /** `FusionGemmFastGelu.__init__`: triggered by FastGelu, producing GemmFastGelu, nothing staged yet. */
  function NewFusionGemmFastGelu(thisGraphName: string): (f: Fusion)
    ensures f.fusedOpType == FusedOpType && f.searchOpTypes == [SearchOpType] && f.description == Description
    ensures f.thisGraphName == thisGraphName
    ensures f.nodesToRemove == [] && f.nodesToAdd == [] && f.nodeNameToGraphName == map[]
  {
    Fusion(FusedOpType, [SearchOpType], Description, thisGraphName, [], [], map[])
  }

  /** Position of the first of `names` that names an initializer. */
  function FirstInitializer(g: Graph, names: seq<string>): (r: Option<nat>)
    ensures r.Some? ==> r.value < |names| && names[r.value] in g.initializers
    ensures r.Some? ==> forall j :: 0 <= j < r.value ==> names[j] !in g.initializers
    ensures r.None? <==> forall j :: 0 <= j < |names| ==> names[j] !in g.initializers
  {
    if |names| == 0 then None
    else if names[0] in g.initializers then Some(0)
    else
      match FirstInitializer(g, names[1..])
      case None => None
      case Some(j) => Some(j + 1)
  }

  /** The rank of the first initializer among `names`, if any. */
  function FirstInitializerRank(g: Graph, names: seq<string>): Option<nat> {
    match FirstInitializer(g, names)
    case None => None
    case Some(i) => Some(|g.initializers[names[i]].dims|)
  }

  /** The node the rule stages: the non-weight MatMul input first, the weight
      second, the bias (when the trigger has one) third. */
  function FusedNode(g: Graph, node: Node, matmul: Node, name: string): (r: Node)
    requires |matmul.inputs| == 2 && FirstInitializer(g, matmul.inputs).Some?
    requires |node.inputs| == 2 ==> FirstInitializer(g, node.inputs).Some?
    ensures r.opType == FusedOpType && r.domain == MicrosoftDomain && r.name == name && r.attrs == []
    ensures r.outputs == node.outputs
    ensures var w := FirstInitializer(g, matmul.inputs).value;
      |r.inputs| >= 2 && r.inputs[0] == matmul.inputs[1 - w] && r.inputs[1] == matmul.inputs[w]
    ensures |node.inputs| == 2 ==>
      |r.inputs| == 3 && r.inputs[2] == node.inputs[FirstInitializer(g, node.inputs).value]
    ensures |node.inputs| != 2 ==> |r.inputs| == 2
  {
    var w := FirstInitializer(g, matmul.inputs).value;
    var bias := if |node.inputs| == 2 then [node.inputs[FirstInitializer(g, node.inputs).value]] else [];
    Node(FusedOpType, name, [matmul.inputs[1 - w], matmul.inputs[w]] + bias, node.outputs, [], MicrosoftDomain)
  }

  /** What the parent matcher promises when it matches `["MatMul"]` through input 0:
      a single MatMul node, which has two inputs. */
  predicate MatchShape(matched: Option<seq<Node>>) {
    matched.Some? ==> |matched.value| == 1 && matched.value[0].opType == "MatMul" && |matched.value[0].inputs| == 2
  }

  /** `fuse` for a FastGelu `node`, given the matcher's answer, the safety
      check and the fresh node name.  A failed match abstains. */
  function Fuse(
    f: Fusion, g: Graph, node: Node, matched: Option<seq<Node>>,
    isSafe: (seq<Node>, seq<string>) -> bool, newName: string)
    : (r: Fusion)
    requires |node.outputs| >= 1 && MatchShape(matched)
    /* it stages something exactly when the match succeeded, the weight is a
       2-D initializer, the bias (if any) a 1-D initializer, and fusing is safe */
    ensures r != f <==>
      && matched.Some?
      && FirstInitializerRank(g, matched.value[0].inputs) == Some(2)
      && (|node.inputs| == 2 ==> FirstInitializerRank(g, node.inputs) == Some(1))
      && isSafe([node, matched.value[0]], [node.outputs[0]])
    /* and then it removes the trigger and the MatMul, adds one fused node, and records its graph */
    ensures r != f ==>
      && r.nodesToRemove == f.nodesToRemove + [node, matched.value[0]]
      && |r.nodesToAdd| == |f.nodesToAdd| + 1 && r.nodesToAdd[..|f.nodesToAdd|] == f.nodesToAdd
      && r.nodesToAdd[|f.nodesToAdd|] == FusedNode(g, node, matched.value[0], newName)
      && r.nodeNameToGraphName == f.nodeNameToGraphName[newName := f.thisGraphName]
    /* the rule's identity and graph name never change */
    ensures r.fusedOpType == f.fusedOpType && r.searchOpTypes == f.searchOpTypes
    ensures r.description == f.description && r.thisGraphName == f.thisGraphName
  {
    match matched
    case None => f
    case Some(path) =>
      var matmul := path[0];
      if FirstInitializerRank(g, matmul.inputs) != Some(2) then f
      else if |node.inputs| == 2 && FirstInitializerRank(g, node.inputs) != Some(1) then f
      else if !isSafe([node, matmul], [node.outputs[0]]) then f
      else
        f.(nodesToRemove := f.nodesToRemove + [node, matmul],
           nodesToAdd := f.nodesToAdd + [FusedNode(g, node, matmul, newName)],
           nodeNameToGraphName := f.nodeNameToGraphName[newName := f.thisGraphName])
  }

  /** `fuse` as written: the matcher's answer is unpacked into a one-element
      list before it is compared with None, so a failed match raises TypeError. */
  function FuseAsWritten(
    f: Fusion, g: Graph, node: Node, matched: Option<seq<Node>>,
    isSafe: (seq<Node>, seq<string>) -> bool, newName: string)
    : (r: Result<Fusion>)
    requires |node.outputs| >= 1 && MatchShape(matched)
    ensures matched.None? <==> r == Err(TypeError)
    ensures matched.Some? ==> r == Ok(Fuse(f, g, node, matched, isSafe, newName))
  {
    if matched.None? then Err(TypeError) else Ok(Fuse(f, g, node, matched, isSafe, newName))
  }

  /** The fused node `n` stands in for the pair: a `com.microsoft`
      GemmFastGelu writing what the trigger wrote, reading both MatMul inputs
      first, and a third input exactly when the trigger has a bias. */
  lemma FusedNodeReplacesPair(g: Graph, node: Node, matmul: Node, name: string, n: Node)
    requires |matmul.inputs| == 2 && FirstInitializerRank(g, matmul.inputs) == Some(2)
    requires |node.inputs| == 2 ==> FirstInitializerRank(g, node.inputs) == Some(1)
    requires n == FusedNode(g, node, matmul, name)
    ensures n.opType == FusedOpType && n.domain == MicrosoftDomain && n.name == name && n.attrs == []
    ensures n.outputs == node.outputs
    ensures |n.inputs| == (if |node.inputs| == 2 then 3 else 2)
    ensures multiset(n.inputs[..2]) == multiset(matmul.inputs)
  {
    var w := FirstInitializer(g, matmul.inputs).value;
    var a0, a1 := matmul.inputs[0], matmul.inputs[1];
    assert matmul.inputs == [a0, a1];
    assert n.inputs[..2] == [matmul.inputs[1 - w], matmul.inputs[w]];
    assert multiset([a1, a0]) == multiset([a0, a1]);
  }

  /** In the fused node `n` the 2-D weight comes second and the 1-D bias,
      taken from the trigger's inputs, third. */
  lemma FusedNodeReadsWeightSecond(g: Graph, node: Node, matmul: Node, name: string, n: Node)
    requires |matmul.inputs| == 2 && FirstInitializerRank(g, matmul.inputs) == Some(2)
    requires |node.inputs| == 2 ==> FirstInitializerRank(g, node.inputs) == Some(1)
    requires n == FusedNode(g, node, matmul, name)
    ensures |n.inputs| >= 2 && n.inputs[1] in matmul.inputs
    ensures n.inputs[1] in g.initializers && |g.initializers[n.inputs[1]].dims| == 2
    ensures |n.inputs| == 3 ==>
      n.inputs[2] in node.inputs && n.inputs[2] in g.initializers && |g.initializers[n.inputs[2]].dims| == 1
  {
    var w := FirstInitializer(g, matmul.inputs).value;
    assert n.inputs[1] == matmul.inputs[w];
    if |node.inputs| == 2 {
      var b := FirstInitializer(g, node.inputs).value;
      assert n.inputs[2] == node.inputs[b];
    }
  }

  /** The fused node does not depend on which MatMul slot held the weight:
      when exactly one MatMul input is an initializer, swapping the MatMul's
      inputs stages the same node. */
  lemma FusedNodeCanonicalOrder(g: Graph, node: Node, matmul: Node, name: string)
    requires |matmul.inputs| == 2
    requires (matmul.inputs[0] in g.initializers) != (matmul.inputs[1] in g.initializers)
    requires |node.inputs| == 2 ==> FirstInitializer(g, node.inputs).Some?
    ensures var swapped := matmul.(inputs := [matmul.inputs[1], matmul.inputs[0]]);
      FirstInitializer(g, swapped.inputs).Some? && FirstInitializer(g, matmul.inputs).Some? &&
      FusedNode(g, node, swapped, name) == FusedNode(g, node, matmul, name)
  {
    var swapped := matmul.(inputs := [matmul.inputs[1], matmul.inputs[0]]);
    assert swapped.inputs[1..] == [matmul.inputs[0]];
    assert matmul.inputs[1..] == [matmul.inputs[1]];
  }

  /** A failed match: the code as written raises where the rule should abstain. */
  lemma FailedMatchRaises()
    ensures var f := NewFusionGemmFastGelu("main");
      var g := Graph([], [], [], map[]);
      var gelu := Node(SearchOpType, "gelu", ["x"], ["y"], [], MicrosoftDomain);
      var isSafe := (nodes: seq<Node>, outputs: seq<string>) => true;
      && FuseAsWritten(f, g, gelu, None, isSafe, "fused") == Err(TypeError)
      && Fuse(f, g, gelu, None, isSafe, "fused") == f
  {
  }
}

=== FILE: fusion_utils.dfy ===
/** The `FusionUtils` helpers: int32 casting of graph inputs, attribute and
    constant-input checks, and the four whole-graph cleanup passes
    (cascaded Cast collapsing, Identity elision, and inference-driven removal
    of Cast and Reshape nodes that change nothing).

    Every pass scans the node sequence in order.  Renamings are applied to all
    nodes as they happen; nodes to remove are remembered by position and
    dropped after the scan, which is what the Python code observes because a
    removed node is never read again. */
module FusionUtils {
  import opened Base
  import opened OnnxGraph

  // ---------------------------------------------------------------------------
  // int32 casting of graph inputs

  /** The name of the int32 copy of `name`. */
  function Int32Name(name: string): string {
    name + "_int32"
  }

  datatype CastResult = CastResult(output: string, node: Node, graph: Graph)

  /** `cast_input_to_int32`: append a Cast to INT32 of `name`.  When `name` is
      itself the output of a Cast, the new Cast reads that Cast's input instead,
      so that two Casts never follow each other. */
  function CastInputToInt32(g: Graph, name: string): (r: CastResult)
    requires SchemaArity(g.nodes)
    ensures r.output == Int32Name(name)
    ensures r.graph.nodes == g.nodes + [r.node] && SameBoundary(g, r.graph)
    ensures r.node.opType == "Cast" && r.node.outputs == [Int32Name(name)]
    ensures r.node.attrs == [Attribute("to", IntAttr(INT32))]
    ensures |r.node.inputs| == 1
    ensures (ProducerIndex(g.nodes, name).Some? && g.nodes[ProducerIndex(g.nodes, name).value].opType == "Cast")
              ==> r.node.inputs[0] == g.nodes[ProducerIndex(g.nodes, name).value].inputs[0]
    ensures (ProducerIndex(g.nodes, name).None? || g.nodes[ProducerIndex(g.nodes, name).value].opType != "Cast")
              ==> r.node.inputs == [name]
  {
    var output := Int32Name(name);
    var source :=
      match ProducerIndex(g.nodes, name)
      case Some(p) => if g.nodes[p].opType == "Cast" then g.nodes[p].inputs[0] else name
      case None => name;
    var cast := Node("Cast", "", [source], [output], [Attribute("to", IntAttr(INT32))], "");
    CastResult(output, cast, AddNode(g, cast))
  }

  /** `cast_graph_input_to_int32`: cast `name` only when it is a graph input
      whose declared element type is not INT32. */
  function CastGraphInputToInt32(g: Graph, name: string): (r: (bool, string, Graph))
    requires SchemaArity(g.nodes)
    ensures r.0 <==> FindGraphInput(g, name).Some? && FindGraphInput(g, name).value.elemType != INT32
    ensures r.0 ==> r.1 == Int32Name(name) && r.2 == CastInputToInt32(g, name).graph
    ensures r.0 ==> |r.2.nodes| == |g.nodes| + 1 && r.2.nodes[..|g.nodes|] == g.nodes
    ensures !r.0 ==> r.1 == name && r.2 == g
  {
    match FindGraphInput(g, name)
    case Some(v) =>
      if v.elemType != INT32 then
        var c := CastInputToInt32(g, name);
        assert c.graph.nodes[..|g.nodes|] == g.nodes;
        (true, c.output, c.graph)
      else (false, name, g)
    case None => (false, name, g)
  }

  /** `att.i` of an attribute: the integer it holds, 0 (the protobuf default)
      for any other kind of attribute. */
  function ProtoInt(v: AttrValue): int {
    if v.IntAttr? then v.i else 0
  }

  /** A Cast node carrying an attribute `to` whose integer is INT32. */
  predicate CastsToInt32(n: Node) {
    n.opType == "Cast" && exists a :: a in n.attrs && a.name == "to" && ProtoInt(a.value) == INT32
  }

  /** `remove_cast_int32`: every INT32 Cast reading `name` is removed and its
      readers read `name` instead.  Looking `name` up in the reader index
      raises KeyError when nothing reads it. */
  function RemoveCastInt32(g: Graph, name: string): (r: Result<Graph>)
    requires SchemaArity(g.nodes)
    ensures r.Err? <==> name == "" || forall k :: 0 <= k < |g.nodes| ==> name !in g.nodes[k].inputs
    ensures r.Err? ==> r.error == KeyError
    ensures r.Ok? ==> SameBoundary(g, r.value) && |r.value.nodes| <= |g.nodes|
  {
    var readers := Consumers(g.nodes, name);
    if |readers| == 0 then
      assert name != "" ==> forall k :: 0 <= k < |g.nodes| ==> name !in g.nodes[k].inputs;
      Err(KeyError)
    else
      var (nodes, removed) := DropInt32Casts(g.nodes, name, readers, 0, {});
      Ok(g.(nodes := Keep(nodes, removed)))
  }

  /** The loop of `remove_cast_int32` over the readers of `name`, from the
      `i`-th on: it removes exactly the INT32 Casts among them. */
  function DropInt32Casts(nodes: seq<Node>, name: string, readers: seq<nat>, i: nat, removed: set<nat>)
    : (r: (seq<Node>, set<nat>))
    requires SchemaArity(nodes)
    requires i <= |readers| && forall j :: 0 <= j < |readers| ==> readers[j] < |nodes|
    ensures OnlyInputsDiffer(nodes, r.0)
    decreases |readers| - i
  {
    if i == |readers| then (nodes, removed)
    else
      var k := readers[i];
      var n := nodes[k];
      var nodes' := if CastsToInt32(n) then ReplaceInputOfAllNodes(nodes, n.outputs[0], name) else nodes;
      assert OnlyInputsDiffer(nodes, nodes');
      SchemaArityKept(nodes, nodes');
      DropInt32Casts(nodes', name, readers, i + 1, if CastsToInt32(n) then removed + {k} else removed)
  }

  /** The loop removes exactly the INT32 Casts among the readers from the `i`-th on. */
  lemma {:induction false} DropInt32CastsRemoves(
    nodes: seq<Node>, name: string, readers: seq<nat>, i: nat, removed: set<nat>)
    requires SchemaArity(nodes)
    requires i <= |readers| && forall j :: 0 <= j < |readers| ==> readers[j] < |nodes|
    ensures forall x :: x in DropInt32Casts(nodes, name, readers, i, removed).1 <==>
      x in removed || (x in readers[i..] && x < |nodes| && CastsToInt32(nodes[x]))
    decreases |readers| - i, 1
  {
    if i < |readers| {
      DropInt32CastsRemovesStep(nodes, name, readers, i, removed);
    }
  }

  /** The inductive case: the iteration at the `i`-th reader, then the rest of the loop. */
  lemma {:induction false} DropInt32CastsRemovesStep(
    nodes: seq<Node>, name: string, readers: seq<nat>, i: nat, removed: set<nat>)
    requires SchemaArity(nodes)
    requires i < |readers| && forall j :: 0 <= j < |readers| ==> readers[j] < |nodes|
    ensures forall x :: x in DropInt32Casts(nodes, name, readers, i, removed).1 <==>
      x in removed || (x in readers[i..] && x < |nodes| && CastsToInt32(nodes[x]))
    decreases |readers| - i, 0
  {
    var nodes', removed' := DropInt32CastsStep(nodes, name, readers, i, removed);
    DropInt32CastsRemoves(nodes', name, readers, i + 1, removed');
    assert readers[i..] == [readers[i]] + readers[i + 1..];
  }

  /** One iteration of the loop of `remove_cast_int32`, at the `i`-th reader. */
  lemma DropInt32CastsStep(nodes: seq<Node>, name: string, readers: seq<nat>, i: nat, removed: set<nat>)
    returns (nodes': seq<Node>, removed': set<nat>)
    requires SchemaArity(nodes)
    requires i < |readers| && forall j :: 0 <= j < |readers| ==> readers[j] < |nodes|
    ensures var n := nodes[readers[i]];
      && nodes' == (if CastsToInt32(n) then ReplaceInputOfAllNodes(nodes, n.outputs[0], name) else nodes)
      && removed' == (if CastsToInt32(n) then removed + {readers[i]} else removed)
    ensures OnlyInputsDiffer(nodes, nodes') && OnlyNamesDiffer(nodes, nodes') && SchemaArity(nodes')
    ensures forall x :: 0 <= x < |nodes| ==> CastsToInt32(nodes'[x]) == CastsToInt32(nodes[x])
    ensures DropInt32Casts(nodes, name, readers, i, removed) == DropInt32Casts(nodes', name, readers, i + 1, removed')
  {
    var n := nodes[readers[i]];
    nodes' := if CastsToInt32(n) then ReplaceInputOfAllNodes(nodes, n.outputs[0], name) else nodes;
    removed' := if CastsToInt32(n) then removed + {readers[i]} else removed;
    assert OnlyInputsDiffer(nodes, nodes');
    OnlyInputsDifferNames(nodes, nodes');
    SchemaArityKept(nodes, nodes');
    forall x | 0 <= x < |nodes|
      ensures CastsToInt32(nodes'[x]) == CastsToInt32(nodes[x])
    {
      assert nodes'[x].opType == nodes[x].opType && nodes'[x].attrs == nodes[x].attrs;
    }
  }

  // ---------------------------------------------------------------------------
  // Attribute and constant checks

  /** The value the attribute loop of `check_node_attribute` holds after the
      first `i` attributes: the LAST of them called `name`, or `default` when
      there is none (`CheckProofs.AttributeValueIsLast`,
      `CheckProofs.AttributeValueDefault`). */
  function AttributeValue(attrs: seq<Attribute>, name: string, default: Option<AttrValue>, i: nat): (r: Option<AttrValue>)
    requires i <= |attrs|
    ensures r == default || exists k :: 0 <= k < i && attrs[k].name == name && r == Some(attrs[k].value)
  {
    if i == 0 then default
    else if attrs[i - 1].name == name then Some(attrs[i - 1].value)
    else AttributeValue(attrs, name, default, i - 1)
  }

  /** `check_node_attribute`: an expected list passes only against a list
      value equal element by element; any other expectation is plain equality. */
  function CheckNodeAttribute(node: Node, name: string, expected: AttrValue, default: Option<AttrValue>): (r: bool)
    ensures expected.IntsAttr? ==>
      (r <==> exists xs :: AttributeValue(node.attrs, name, default, |node.attrs|) == Some(IntsAttr(xs)) &&
                |xs| == |expected.ints| && forall i :: 0 <= i < |xs| ==> xs[i] == expected.ints[i])
    ensures !expected.IntsAttr? ==> (r <==> AttributeValue(node.attrs, name, default, |node.attrs|) == Some(expected))
  {
    var value := AttributeValue(node.attrs, name, default, |node.attrs|);
    if expected.IntsAttr? then
      value.Some? && value.value.IntsAttr? && value.value.ints == expected.ints
    else
      value == Some(expected)
  }

  /** The truth value Python gives a numpy boolean array: a single element
      decides; any other size is ambiguous and raises ValueError. */
  function ArrayTruth(bits: seq<bool>): (r: Result<bool>)
    ensures |bits| == 1 <==> r.Ok?
    ensures r.Ok? ==> r.value == bits[0]
    ensures r.Err? ==> r.error == ValueError
  {
    if |bits| == 1 then Ok(bits[0]) else Err(ValueError)
  }

  /** `check_qdq_node_for_fusion`.  The op type is only logged, never checked,
      so no clause below depends on `node.opType`. */
  function CheckQdqNodeForFusion(node: Node, constant: string -> Option<ConstValue>): (r: Result<bool>)
    ensures |node.inputs| < 2 <==> r == Err(IndexError)
    ensures |node.inputs| >= 2 && constant(node.inputs[1]).None? ==> r == Ok(false)
    ensures |node.inputs| >= 2 && constant(node.inputs[1]).Some? && |node.inputs| != 3 ==> r == Ok(true)
    ensures |node.inputs| == 3 && constant(node.inputs[1]).Some? ==>
      && (r == Ok(true) <==> constant(node.inputs[2]).Some? && constant(node.inputs[2]).value.elems == [0])
      && (r.Err? <==> constant(node.inputs[2]).Some? && |constant(node.inputs[2]).value.elems| != 1)
      && (r.Err? ==> r.error == ValueError)
  {
    if |node.inputs| < 2 then Err(IndexError)
    else if constant(node.inputs[1]).None? then Ok(false)
    else if |node.inputs| != 3 then Ok(true)
    else
      match constant(node.inputs[2])
      case None => Ok(false)
      case Some(zeroPoint) =>
        var nonZero := seq(|zeroPoint.elems|, i requires 0 <= i < |zeroPoint.elems| => zeroPoint.elems[i] != 0);
        match ArrayTruth(nonZero)
        case Err(e) => Err(e)
        case Ok(b) => Ok(!b)
  }

  /** The expected value handed to `check_node_input_value`. */
  datatype Expected = ExpectScalar(x: int) | ExpectList(xs: seq<int>)

  /** `check_node_input_value`, as the truth value its caller tests.  A
      negative index counts from the end, as Python subscripts do. */
  function CheckNodeInputValue(node: Node, index: int, expected: Expected, constant: string -> Option<ConstValue>)
    : (r: Result<bool>)
    ensures index >= |node.inputs| <==> r == Err(AssertionError)
    ensures index < -|node.inputs| <==> r == Err(IndexError)
    ensures 0 <= index < |node.inputs| && expected.ExpectList? ==>
      (r == Ok(true) <==> constant(node.inputs[index]) == Some(ConstValue([|expected.xs|], expected.xs)))
    ensures 0 <= index < |node.inputs| && expected.ExpectScalar? ==>
      (r == Ok(true) <==> exists v :: constant(node.inputs[index]) == Some(v) && v.elems == [expected.x])
  {
    if !(|node.inputs| > index) then Err(AssertionError)
    else if index < -|node.inputs| then Err(IndexError)
    else
      var name := if index >= 0 then node.inputs[index] else node.inputs[|node.inputs| + index];
      var value := constant(name);
      match expected
      case ExpectList(xs) =>
        Ok(value.Some? && value.value.dims == [|xs|] && value.value.elems == xs)
      case ExpectScalar(x) =>
        if value.None? then Ok(false)
        else ArrayTruth(seq(|value.value.elems|, i requires 0 <= i < |value.value.elems| => value.value.elems[i] == x))
  }

  // ---------------------------------------------------------------------------
  // Cascaded Casts and Identity nodes

  /** A Cast whose parent through input 0 (`get_parent(node, 0)`) is a Cast. */
  predicate CastAfterCast(nodes: seq<Node>, k: nat)
    requires k < |nodes|
  {
    && nodes[k].opType == "Cast"
    && |nodes[k].inputs| >= 1
    && var p := ProducerIndex(nodes, nodes[k].inputs[0]);
       p.Some? && nodes[p.value].opType == "Cast"
  }

  /** The loop of `remove_cascaded_cast_nodes` from position `t` on, with the
      number of rewrites so far. */
  function CascadeScan(nodes: seq<Node>, t: nat, count: nat): (r: (seq<Node>, nat))
    requires t <= |nodes| && SchemaArity(nodes)
    ensures OnlyInputsDiffer(nodes, r.0)
    ensures r.1 >= count
    decreases |nodes| - t
  {
    if t == |nodes| then (nodes, count)
    else if CastAfterCast(nodes, t) then
      var nodes' := CascadeStep(nodes, t);
      CascadeScan(nodes', t + 1, count + 1)
    else
      CascadeScan(nodes, t + 1, count)
  }

  /** The scan rewrites something exactly when some Cast from `t` on is fed by a Cast. */
  lemma {:induction false} CascadeScanCounts(nodes: seq<Node>, t: nat, count: nat)
    requires t <= |nodes| && SchemaArity(nodes)
    ensures CascadeScan(nodes, t, count).1 == count <==> forall k :: t <= k < |nodes| ==> !CastAfterCast(nodes, k)
    decreases |nodes| - t
  {
    if t < |nodes| {
      if CastAfterCast(nodes, t) {
        var nodes' := CascadeStep(nodes, t);
        assert CascadeScan(nodes, t, count) == CascadeScan(nodes', t + 1, count + 1);
      } else {
        CascadeScanCounts(nodes, t + 1, count);
        assert CascadeScan(nodes, t, count) == CascadeScan(nodes, t + 1, count);
      }
    }
  }

  /** One rewrite: node `t` now reads its parent's input 0. */
  function CascadeStep(nodes: seq<Node>, t: nat): (r: seq<Node>)
    requires t < |nodes| && SchemaArity(nodes) && CastAfterCast(nodes, t)
    ensures OnlyInputsDiffer(nodes, r) && SchemaArity(r)
    ensures forall k :: 0 <= k < |nodes| && k != t ==> r[k] == nodes[k]
    ensures forall k :: 0 <= k < |nodes| && k != t ==> CastAfterCast(r, k) == CastAfterCast(nodes, k)
  {
    var p := ProducerIndex(nodes, nodes[t].inputs[0]).value;
    var r := nodes[t := nodes[t].(inputs := nodes[t].inputs[0 := nodes[p].inputs[0]])];
    ProducersStable(nodes, r);
    assert OnlyInputsDiffer(nodes, r);
    SchemaArityKept(nodes, r);
    r
  }

  /** `remove_cascaded_cast_nodes`: every Cast fed by a Cast reads that Cast's
      input instead; the graph is pruned only when something was rewritten. */
  function RemoveCascadedCastNodes(g: Graph, prune: Graph -> Graph): (r: Graph)
    requires SchemaArity(g.nodes)
    ensures (forall k :: 0 <= k < |g.nodes| ==> !CastAfterCast(g.nodes, k)) ==> r == g
    ensures (exists k :: 0 <= k < |g.nodes| && CastAfterCast(g.nodes, k)) ==>
      r == prune(g.(nodes := CascadeScan(g.nodes, 0, 0).0))
  {
    CascadeScanCounts(g.nodes, 0, 0);
    var (nodes, count) := CascadeScan(g.nodes, 0, 0);
    if count > 0 then prune(g.(nodes := nodes)) else g
  }

  /** An Identity node that `remove_identity_nodes` elides: its output is not a graph output. */
  predicate Elidable(n: Node, graphOut: set<string>) {
    n.opType == "Identity" && |n.outputs| >= 1 && n.outputs[0] !in graphOut
  }

  /** The loop of `remove_identity_nodes` from position `t` on.  Readers are
      rewired during the scan; the elided positions are collected for removal
      afterwards. */
  function IdentityScan(nodes: seq<Node>, graphOut: set<string>, t: nat, removed: set<nat>)
    : (r: (seq<Node>, set<nat>))
    requires t <= |nodes| && SchemaArity(nodes)
    ensures OnlyInputsDiffer(nodes, r.0)
    decreases |nodes| - t
  {
    if t == |nodes| then (nodes, removed)
    else
      var n := nodes[t];
      var elide := Elidable(n, graphOut);
      var nodes' := if elide then ReplaceInputOfAllNodes(nodes, n.outputs[0], n.inputs[0]) else nodes;
      assert OnlyInputsDiffer(nodes, nodes');
      SchemaArityKept(nodes, nodes');
      IdentityScan(nodes', graphOut, t + 1, if elide then removed + {t} else removed)
  }

  /** The positions the scan collects from `t` on are exactly the elidable Identities. */
  lemma {:induction false} IdentityScanElides(nodes: seq<Node>, graphOut: set<string>, t: nat, removed: set<nat>)
    requires t <= |nodes| && SchemaArity(nodes)
    ensures forall k :: k in IdentityScan(nodes, graphOut, t, removed).1 <==>
      k in removed || (t <= k < |nodes| && Elidable(nodes[k], graphOut))
    decreases |nodes| - t, 1
  {
    if t < |nodes| {
      IdentityScanElidesStep(nodes, graphOut, t, removed);
    }
  }

  /** The inductive case: the scan's step at `t`, then the rest of the scan. */
  lemma {:induction false} IdentityScanElidesStep(nodes: seq<Node>, graphOut: set<string>, t: nat, removed: set<nat>)
    requires t < |nodes| && SchemaArity(nodes)
    ensures forall k :: k in IdentityScan(nodes, graphOut, t, removed).1 <==>
      k in removed || (t <= k < |nodes| && Elidable(nodes[k], graphOut))
    decreases |nodes| - t, 0
  {
    var nodes', removed' := IdentityScanStep(nodes, graphOut, t, removed);
    assert forall k :: 0 <= k < |nodes| ==> Elidable(nodes'[k], graphOut) == Elidable(nodes[k], graphOut);
    IdentityScanElides(nodes', graphOut, t + 1, removed');
  }

  /** The state after the scan's step at position `t`. */
  lemma IdentityScanStep(nodes: seq<Node>, graphOut: set<string>, t: nat, removed: set<nat>)
    returns (nodes': seq<Node>, removed': set<nat>)
    requires t < |nodes| && SchemaArity(nodes)
    ensures var n := nodes[t];
      && nodes' == (if Elidable(n, graphOut) then ReplaceInputOfAllNodes(nodes, n.outputs[0], n.inputs[0]) else nodes)
      && removed' == (if Elidable(n, graphOut) then removed + {t} else removed)
      && SchemaArity(nodes')
      && IdentityScan(nodes, graphOut, t, removed) == IdentityScan(nodes', graphOut, t + 1, removed')
  {
    var n := nodes[t];
    nodes' := if Elidable(n, graphOut) then ReplaceInputOfAllNodes(nodes, n.outputs[0], n.inputs[0]) else nodes;
    removed' := if Elidable(n, graphOut) then removed + {t} else removed;
    assert OnlyInputsDiffer(nodes, nodes');
    OnlyInputsDifferNames(nodes, nodes');
    SchemaArityKept(nodes, nodes');
  }

  /** `remove_identity_nodes`: exactly the Identity nodes whose output is a
      graph output survive among the Identities; every other node survives
      with at most its inputs rewired. */
  function RemoveIdentityNodes(g: Graph): (r: Graph)
    requires SchemaArity(g.nodes)
    ensures SameBoundary(g, r)
    ensures forall j :: 0 <= j < |r.nodes| ==> !Elidable(r.nodes[j], OutputNames(g))
    ensures forall k :: 0 <= k < |g.nodes| && !Elidable(g.nodes[k], OutputNames(g)) ==>
      exists j :: 0 <= j < |r.nodes| && r.nodes[j] == g.nodes[k].(inputs := r.nodes[j].inputs)
  {
    IdentityScanElides(g.nodes, OutputNames(g), 0, {});
    var (nodes, removed) := IdentityScan(g.nodes, OutputNames(g), 0, {});
    var kept := Keep(nodes, removed);
    ElidedAllGone(g.nodes, nodes, removed, OutputNames(g));
    OthersAllKept(g.nodes, nodes, removed, OutputNames(g));
    g.(nodes := kept)
  }

  /** Dropping exactly the elidable positions leaves no elidable Identity. */
  lemma ElidedAllGone(orig: seq<Node>, nodes: seq<Node>, removed: set<nat>, graphOut: set<string>)
    requires OnlyInputsDiffer(orig, nodes)
    requires forall k :: k in removed <==> 0 <= k < |orig| && Elidable(orig[k], graphOut)
    ensures forall j :: 0 <= j < |Keep(nodes, removed)| ==> !Elidable(Keep(nodes, removed)[j], graphOut)
  {
    var kept := Keep(nodes, removed);
    var idx := KeptIndices(|nodes|, removed, 0);
    forall j | 0 <= j < |kept|
      ensures !Elidable(kept[j], graphOut)
    {
      assert kept[j] == nodes[idx[j]];
      assert !Elidable(orig[idx[j]], graphOut);
    }
  }

  /** Dropping only elidable positions keeps every other node, up to its inputs. */
  lemma OthersAllKept(orig: seq<Node>, nodes: seq<Node>, removed: set<nat>, graphOut: set<string>)
    requires OnlyInputsDiffer(orig, nodes)
    requires forall k :: k in removed <==> 0 <= k < |orig| && Elidable(orig[k], graphOut)
    ensures forall k :: 0 <= k < |orig| && !Elidable(orig[k], graphOut) ==>
      exists j :: 0 <= j < |Keep(nodes, removed)| &&
        Keep(nodes, removed)[j] == orig[k].(inputs := Keep(nodes, removed)[j].inputs)
  {
    var kept := Keep(nodes, removed);
    forall k | 0 <= k < |orig| && !Elidable(orig[k], graphOut)
      ensures exists j :: 0 <= j < |kept| && kept[j] == orig[k].(inputs := kept[j].inputs)
    {
      KeepKeeps(nodes, removed, k);
      var j :| 0 <= j < |kept| && kept[j] == nodes[k];
      assert kept[j] == orig[k].(inputs := kept[j].inputs);
    }
  }

  // ---------------------------------------------------------------------------
  // Shape and type inference results

  /** A symbolic or concrete dimension of an inferred shape. */
  datatype Dim = DimValue(n: int) | DimParam(symbol: string)

  /** What shape/type inference made known: element types declared in the
      model, element types in the inference's value-info table (absent when
      the entry has no element type), and inferred edge shapes. */
  datatype Inference = Inference(
    declaredType: map<string, int>,
    knownType: map<string, Option<int>>,
    edgeShape: map<string, seq<Dim>>)

  /** `get_dtype`: the declared type first; otherwise, when an inference
      helper is given, its value-info entry, which raises KeyError if absent. */
  function GetDtype(declared: map<string, int>, known: Option<map<string, Option<int>>>, name: string)
    : (r: Result<Option<int>>)
    ensures name in declared ==> r == Ok(Some(declared[name]))
    ensures name !in declared && known.None? ==> r == Ok(None)
    ensures name !in declared && known.Some? ==>
      (r.Err? <==> name !in known.value) && (r.Ok? ==> r.value == known.value[name])
    ensures r.Err? ==> r.error == KeyError
  {
    if name in declared then Ok(Some(declared[name]))
    else if known.None? then Ok(None)
    else if name !in known.value then Err(KeyError)
    else Ok(known.value[name])
  }

  /** `get_dtype` as the useless-Cast pass calls it, with inference available. */
  function InferredType(inference: Inference, name: string): Result<Option<int>> {
    GetDtype(inference.declaredType, Some(inference.knownType), name)
  }

  /** Whether the Cast pass lists `n` for removal: a Cast whose input type is
      known, non-zero, and equal to its output type.  The input's type is
      looked up before the output is indexed, so a missing input entry raises
      KeyError even when the Cast has no output. */
  function UselessCastDecision(inference: Inference, n: Node): (r: Result<bool>)
    ensures n.opType != "Cast" ==> r == Ok(false)
    /* listed exactly when both types are known and equal, and the input's is non-zero */
    ensures r == Ok(true) <==>
      && n.opType == "Cast" && |n.inputs| >= 1 && |n.outputs| >= 1
      && InferredType(inference, n.inputs[0]).Ok? && InferredType(inference, n.inputs[0]).value.Some?
      && InferredType(inference, n.inputs[0]).value.value != 0
      && InferredType(inference, n.outputs[0]) == InferredType(inference, n.inputs[0])
    /* the errors, in the order the Python code meets them */
    ensures r.Err? <==>
      && n.opType == "Cast"
      && (|n.inputs| == 0 || InferredType(inference, n.inputs[0]).Err? ||
          |n.outputs| == 0 || InferredType(inference, n.outputs[0]).Err?)
    ensures n.opType == "Cast" && |n.inputs| == 0 ==> r == Err(IndexError)
    ensures n.opType == "Cast" && |n.inputs| >= 1 && InferredType(inference, n.inputs[0]).Err? ==> r == Err(KeyError)
    ensures n.opType == "Cast" && |n.inputs| >= 1 && InferredType(inference, n.inputs[0]).Ok? && |n.outputs| == 0 ==>
      r == Err(IndexError)
    ensures
      && n.opType == "Cast" && |n.inputs| >= 1 && |n.outputs| >= 1
      && InferredType(inference, n.inputs[0]).Ok? && InferredType(inference, n.outputs[0]).Err?
      ==> r == Err(KeyError)
  {
    if n.opType != "Cast" then Ok(false)
    else if |n.inputs| == 0 then Err(IndexError)
    else
      match InferredType(inference, n.inputs[0])
      case Err(e) => Err(e)
      case Ok(inType) =>
        if |n.outputs| == 0 then Err(IndexError)
        else
          match InferredType(inference, n.outputs[0])
          case Err(e) => Err(e)
          case Ok(outType) => Ok(inType.Some? && inType.value != 0 && inType == outType)
  }

  /** The Cast pass raises KeyError exactly when `get_dtype` finds neither a
      declared type nor a value-info entry: for the input, or, once the input
      is known, for the output. */
  lemma UselessCastKeyErrorIsMissingEntry(inference: Inference, n: Node)
    ensures UselessCastDecision(inference, n) == Err(KeyError) <==>
      && n.opType == "Cast" && |n.inputs| >= 1
      && (|| (n.inputs[0] !in inference.declaredType && n.inputs[0] !in inference.knownType)
          || (&& (n.inputs[0] in inference.declaredType || n.inputs[0] in inference.knownType)
              && |n.outputs| >= 1
              && n.outputs[0] !in inference.declaredType && n.outputs[0] !in inference.knownType))
  {
  }

  /** Whether the Reshape pass lists `n` for removal: a Reshape whose input and
      output shapes are both inferred, non-empty and equal. */
  function UselessReshapeDecision(inference: Inference, n: Node): (r: Result<bool>)
    ensures n.opType != "Reshape" ==> r == Ok(false)
    /* listed exactly when both shapes are known, non-empty and equal */
    ensures r == Ok(true) <==>
      && n.opType == "Reshape" && |n.inputs| >= 1 && |n.outputs| >= 1
      && n.inputs[0] in inference.edgeShape && n.outputs[0] in inference.edgeShape
      && |inference.edgeShape[n.inputs[0]]| > 0
      && inference.edgeShape[n.inputs[0]] == inference.edgeShape[n.outputs[0]]
    ensures r.Err? <==> n.opType == "Reshape" && (|n.inputs| == 0 || |n.outputs| == 0)
    ensures r.Err? ==> r.error == IndexError
  {
    if n.opType != "Reshape" then Ok(false)
    else if |n.inputs| == 0 || |n.outputs| == 0 then Err(IndexError)
    else
      var inShape := n.inputs[0];
      var outShape := n.outputs[0];
      Ok(inShape in inference.edgeShape && outShape in inference.edgeShape &&
         |inference.edgeShape[inShape]| > 0 && |inference.edgeShape[outShape]| > 0 &&
         inference.edgeShape[inShape] == inference.edgeShape[outShape])
  }

  /** The two inference-driven passes. */
  datatype UselessKind = UselessCast | UselessReshape

  function Decide(kind: UselessKind, inference: Inference, n: Node): (r: Result<bool>)
    ensures r == Ok(true) ==> |n.inputs| >= 1 && |n.outputs| >= 1
  {
    match kind
    case UselessCast => UselessCastDecision(inference, n)
    case UselessReshape => UselessReshapeDecision(inference, n)
  }

  /** Positions, from `i` on, of the nodes the pass lists for removal, in node
      order; the first failing decision aborts the scan. */
  function Candidates(nodes: seq<Node>, kind: UselessKind, inference: Inference, i: nat): (r: Result<seq<nat>>)
    requires i <= |nodes|
    ensures r.Err? <==> exists k :: i <= k < |nodes| && Decide(kind, inference, nodes[k]).Err?
    ensures r.Ok? ==> forall j :: 0 <= j < |r.value| ==>
      i <= r.value[j] < |nodes| && Decide(kind, inference, nodes[r.value[j]]) == Ok(true)
    ensures r.Ok? ==> forall j, j' :: 0 <= j < j' < |r.value| ==> r.value[j] < r.value[j']
    decreases |nodes| - i
  {
    if i == |nodes| then Ok([])
    else
      match Decide(kind, inference, nodes[i])
      case Err(e) => Err(e)
      case Ok(b) =>
        match Candidates(nodes, kind, inference, i + 1)
        case Err(e) => Err(e)
        case Ok(rest) => Ok((if b then [i] else []) + rest)
  }

  /** The boundary rule as `remove_useless_cast_nodes` and
      `remove_useless_reshape_nodes` write it, for the candidate at position
      `k`: a node that writes a graph output and reads a graph input is kept;
      one that writes a graph output only hands that name to its input's
      producers, leaving the input's other readers on a name nobody writes
      any more (`BoundaryStepDangles`); any other node has its readers read
      its input. */
  function BoundaryStepAsWritten(nodes: seq<Node>, k: nat, graphIn: set<string>, graphOut: set<string>)
    : (r: (seq<Node>, bool))
    requires k < |nodes| && |nodes[k].inputs| >= 1 && |nodes[k].outputs| >= 1
    ensures OnlyNamesDiffer(nodes, r.0)
    ensures !r.1 <==> Meets(nodes[k].outputs, graphOut) && Meets(nodes[k].inputs, graphIn)
    /* only the producers are renamed, never the readers */
    ensures Meets(nodes[k].outputs, graphOut) && !Meets(nodes[k].inputs, graphIn) ==>
      forall m :: 0 <= m < |nodes| ==>
        r.0[m] == nodes[m].(outputs := Rename(nodes[m].outputs, nodes[k].inputs[0], nodes[k].outputs[0]))
    /* on the other branches it agrees with the corrected rule */
    ensures !(Meets(nodes[k].outputs, graphOut) && !Meets(nodes[k].inputs, graphIn)) ==>
      r == BoundaryStep(nodes, k, graphIn, graphOut)
  {
    var n := nodes[k];
    if Meets(n.outputs, graphOut) then
      if !Meets(n.inputs, graphIn) then (ReplaceOutputOfAllNodes(nodes, n.inputs[0], n.outputs[0]), true)
      else (nodes, false)
    else (ReplaceInputOfAllNodes(nodes, n.outputs[0], n.inputs[0]), true)
  }

  /** The boundary rule with the input tensor renamed everywhere: a node
      that writes a graph output and reads a graph input is kept; one that
      writes a graph output only gives its input tensor the output's name,
      in its producers and its readers alike; any other node has its readers
      read its input (`BoundaryStepEffect` states how). */
  function BoundaryStep(nodes: seq<Node>, k: nat, graphIn: set<string>, graphOut: set<string>)
    : (r: (seq<Node>, bool))
    requires k < |nodes| && |nodes[k].inputs| >= 1 && |nodes[k].outputs| >= 1
    ensures OnlyNamesDiffer(nodes, r.0)
    ensures !r.1 <==> Meets(nodes[k].outputs, graphOut) && Meets(nodes[k].inputs, graphIn)
    ensures !r.1 ==> r.0 == nodes
  {
    var n := nodes[k];
    if Meets(n.outputs, graphOut) then
      if !Meets(n.inputs, graphIn) then
        (ReplaceInputOfAllNodes(ReplaceOutputOfAllNodes(nodes, n.inputs[0], n.outputs[0]), n.inputs[0], n.outputs[0]), true)
      else (nodes, false)
    else (ReplaceInputOfAllNodes(nodes, n.outputs[0], n.inputs[0]), true)
  }

  /** How the boundary rule rewires a dropped node's neighbours. */
  lemma BoundaryStepEffect(nodes: seq<Node>, k: nat, graphIn: set<string>, graphOut: set<string>)
    requires k < |nodes| && |nodes[k].inputs| >= 1 && |nodes[k].outputs| >= 1
    /* writes a graph output, reads no graph input: its input tensor takes its output name everywhere */
    ensures Meets(nodes[k].outputs, graphOut) && !Meets(nodes[k].inputs, graphIn) ==>
      forall m :: 0 <= m < |nodes| ==>
        BoundaryStep(nodes, k, graphIn, graphOut).0[m]
          == nodes[m].(inputs := Rename(nodes[m].inputs, nodes[k].inputs[0], nodes[k].outputs[0]),
                       outputs := Rename(nodes[m].outputs, nodes[k].inputs[0], nodes[k].outputs[0]))
    /* writes no graph output: its readers now read its input */
    ensures !Meets(nodes[k].outputs, graphOut) ==>
      forall m :: 0 <= m < |nodes| ==>
        BoundaryStep(nodes, k, graphIn, graphOut).0[m]
          == nodes[m].(inputs := Rename(nodes[m].inputs, nodes[k].outputs[0], nodes[k].inputs[0]))
  {
  }

  /** The name a dropped candidate takes out of the graph: its input when it
      writes a graph output (that output name replaces it), its output
      otherwise. */
  function VanishingName(n: Node, graphOut: set<string>): string
    requires |n.inputs| >= 1 && |n.outputs| >= 1
  {
    if Meets(n.outputs, graphOut) then n.inputs[0] else n.outputs[0]
  }

  /** After the corrected rule drops a candidate, no node reads the name it
      took out of the graph; when that name was its input, no node writes it
      either. */
  lemma BoundaryStepLeavesNoDanglingReader(nodes: seq<Node>, k: nat, graphIn: set<string>, graphOut: set<string>)
    requires k < |nodes| && |nodes[k].inputs| >= 1 && |nodes[k].outputs| >= 1
    requires nodes[k].inputs[0] != nodes[k].outputs[0]
    requires BoundaryStep(nodes, k, graphIn, graphOut).1
    ensures var r := BoundaryStep(nodes, k, graphIn, graphOut).0;
      var gone := VanishingName(nodes[k], graphOut);
      forall m, q :: 0 <= m < |r| && 0 <= q < |r[m].inputs| ==> r[m].inputs[q] != gone
    ensures Meets(nodes[k].outputs, graphOut) ==>
      var r := BoundaryStep(nodes, k, graphIn, graphOut).0;
      forall m, q :: 0 <= m < |r| && 0 <= q < |r[m].outputs| ==> r[m].outputs[q] != nodes[k].inputs[0]
  {
    BoundaryStepEffect(nodes, k, graphIn, graphOut);
  }

  /** Relu(X) -> t, a useless Cast(t) -> Y with Y a graph output, and
      Neg(t) -> Z: as written, the Cast's removal leaves Neg reading `t`,
      which no remaining node writes; the corrected rule has Neg read `Y`. */
  lemma BoundaryStepDangles()
    ensures var nodes := [Node("Relu", "relu", ["X"], ["t"], [], ""),
                          Node("Cast", "cast", ["t"], ["Y"], [], ""),
                          Node("Neg", "neg", ["t"], ["Z"], [], "")];
      var asWritten := BoundaryStepAsWritten(nodes, 1, {"X"}, {"Y", "Z"});
      var corrected := BoundaryStep(nodes, 1, {"X"}, {"Y", "Z"});
      && asWritten.1 && asWritten.0[2].inputs == ["t"]
      && asWritten.0[0].outputs == ["Y"] && asWritten.0[2].outputs == ["Z"]
      && corrected.1 && corrected.0[2].inputs == ["Y"]
  {
    var nodes := [Node("Relu", "relu", ["X"], ["t"], [], ""),
                  Node("Cast", "cast", ["t"], ["Y"], [], ""),
                  Node("Neg", "neg", ["t"], ["Z"], [], "")];
    assert nodes[1].outputs[0] in {"Y", "Z"};
    assert !Meets(nodes[1].inputs, {"X"});
  }

  /** The removal loop shared by the Cast and Reshape passes, over the
      candidates from the `i`-th on. */
  function RemoveWithBoundary(
    nodes: seq<Node>, candidates: seq<nat>, i: nat, graphIn: set<string>, graphOut: set<string>, removed: set<nat>)
    : (r: (seq<Node>, set<nat>))
    requires i <= |candidates|
    requires forall j :: 0 <= j < |candidates| ==>
      candidates[j] < |nodes| && |nodes[candidates[j]].inputs| >= 1 && |nodes[candidates[j]].outputs| >= 1
    ensures OnlyNamesDiffer(nodes, r.0)
    ensures removed <= r.1
    ensures forall k :: k in r.1 ==> k in removed || k in candidates[i..]
    decreases |candidates| - i
  {
    if i == |candidates| then (nodes, removed)
    else
      var k := candidates[i];
      var (nodes', drop) := BoundaryStep(nodes, k, graphIn, graphOut);
      var r := RemoveWithBoundary(nodes', candidates, i + 1, graphIn, graphOut, if drop then removed + {k} else removed);
      assert candidates[i..] == [k] + candidates[i + 1..];
      r
  }

  /** The part `remove_useless_cast_nodes` and `remove_useless_reshape_nodes`
      share once inference is available: list the candidates, then apply the
      boundary rule to each. */
  function RemoveUseless(g: Graph, kind: UselessKind, inference: Inference): (r: Result<Graph>)
    ensures r.Err? <==> exists k :: 0 <= k < |g.nodes| && Decide(kind, inference, g.nodes[k]).Err?
    ensures r.Ok? ==> SameBoundary(g, r.value) && |r.value.nodes| <= |g.nodes|
    ensures r.Ok? && (forall k :: 0 <= k < |g.nodes| ==> Decide(kind, inference, g.nodes[k]) == Ok(false)) ==> r.value == g
  {
    match Candidates(g.nodes, kind, inference, 0)
    case Err(e) => Err(e)
    case Ok(candidates) =>
      if |candidates| == 0 then Ok(g)
      else
        var (nodes, removed) := RemoveWithBoundary(g.nodes, candidates, 0, InputNames(g), OutputNames(g), {});
        Ok(g.(nodes := Keep(nodes, removed)))
  }

  /** `remove_useless_cast_nodes`: nothing happens when inference is unavailable. */
  function RemoveUselessCastNodes(g: Graph, inference: Option<Inference>): (r: Result<Graph>)
    ensures inference.None? ==> r == Ok(g)
    ensures inference.Some? ==>
      (r.Err? <==> exists k :: 0 <= k < |g.nodes| && UselessCastDecision(inference.value, g.nodes[k]).Err?)
    ensures r.Ok? ==> SameBoundary(g, r.value) && |r.value.nodes| <= |g.nodes|
  {
    match inference
    case None => Ok(g)
    case Some(inf) => RemoveUseless(g, UselessCast, inf)
  }

  /** `remove_useless_reshape_nodes`: nothing happens when inference is unavailable. */
  function RemoveUselessReshapeNodes(g: Graph, inference: Option<Inference>): (r: Result<Graph>)
    ensures inference.None? ==> r == Ok(g)
    ensures inference.Some? ==>
      (r.Err? <==> exists k :: 0 <= k < |g.nodes| && UselessReshapeDecision(inference.value, g.nodes[k]).Err?)
    ensures r.Ok? ==> SameBoundary(g, r.value) && |r.value.nodes| <= |g.nodes|
  {
    match inference
    case None => Ok(g)
    case Some(inf) => RemoveUseless(g, UselessReshape, inf)
  }
}

=== FILE: onnx_graph.dfy ===
/** An ONNX-style dataflow graph and the graph primitives the fusion code calls.

    A node reads and writes tensors by NAME; edges are shared names, not references.  The
    primitives below (producer and consumer lookup, renaming a tensor in every
    node, adding and removing nodes) are the small pure counterparts of the
    `OnnxModel` helpers the rewrite passes call. */
module OnnxGraph {
  import opened Base

  /** `TensorProto.INT32`, the element type the int32 helpers cast to. */
  const INT32: int := 6

  /** A numpy array as the code compares it: its shape and its elements in row-major order. */
  datatype ConstValue = ConstValue(dims: seq<int>, elems: seq<int>)

  /** Attribute values as `helper.get_attribute_value` returns them:
      an int, a list of ints or a tensor. */
  datatype AttrValue =
    | IntAttr(i: int)
    | IntsAttr(ints: seq<int>)
    | TensorAttr(t: ConstValue)

  datatype Attribute = Attribute(name: string, value: AttrValue)

  datatype Node = Node(
    opType: string,
    name: string,
    inputs: seq<string>,
    outputs: seq<string>,
    attrs: seq<Attribute>,
    domain: string)

  /** A graph input or output: its name and declared element type. */
  datatype ValueInfo = ValueInfo(name: string, elemType: int)

  /** A constant weight, known here only by its dimensions (rank = |dims|). */
  datatype Initializer = Initializer(dims: seq<int>)

  datatype Graph = Graph(
    nodes: seq<Node>,
    inputs: seq<ValueInfo>,
    outputs: seq<ValueInfo>,
    initializers: map<string, Initializer>)

  function InputNames(g: Graph): set<string> {
    set v | v in g.inputs :: v.name
  }

  function OutputNames(g: Graph): set<string> {
    set v | v in g.outputs :: v.name
  }

  /** True iff some name of `names` belongs to `s` (Python's `bool(set(names) & s)`). */
  predicate Meets(names: seq<string>, s: set<string>) {
    exists i :: 0 <= i < |names| && names[i] in s
  }

  /** ONNX arity of the operators the cleanup passes read: every Cast, Identity
      and Reshape node has a first input and a first output. */
  predicate SchemaArity(nodes: seq<Node>) {
    forall k :: 0 <= k < |nodes| && nodes[k].opType in {"Cast", "Identity", "Reshape"} ==>
      |nodes[k].inputs| >= 1 && |nodes[k].outputs| >= 1
  }

  /** Two node sequences that differ at most in the tensor NAMES their nodes read and write. */
  predicate OnlyNamesDiffer(a: seq<Node>, b: seq<Node>) {
    && |a| == |b|
    && forall k :: 0 <= k < |a| ==>
         && SameOp(a[k], b[k])
         && |b[k].inputs| == |a[k].inputs|
         && |b[k].outputs| == |a[k].outputs|
  }

  /** Two node sequences that differ at most in the tensor names their nodes read. */
  predicate OnlyInputsDiffer(a: seq<Node>, b: seq<Node>) {
    && |a| == |b|
    && forall k :: 0 <= k < |a| ==>
         && SameOp(a[k], b[k])
         && b[k].outputs == a[k].outputs
         && |b[k].inputs| == |a[k].inputs|
  }

  /** Two nodes that agree on everything but the tensor names they read and write. */
  predicate SameOp(m: Node, n: Node) {
    m.opType == n.opType && m.name == n.name && m.attrs == n.attrs && m.domain == n.domain
  }

  lemma SchemaArityKept(a: seq<Node>, b: seq<Node>)
    requires SchemaArity(a) && OnlyNamesDiffer(a, b)
    ensures SchemaArity(b)
  {
    forall k | 0 <= k < |b| && b[k].opType in {"Cast", "Identity", "Reshape"}
      ensures |b[k].inputs| >= 1 && |b[k].outputs| >= 1
    {
      assert b[k].opType == a[k].opType;
    }
  }

  lemma OnlyInputsDifferNames(a: seq<Node>, b: seq<Node>)
    requires OnlyInputsDiffer(a, b)
    ensures OnlyNamesDiffer(a, b)
  {
    forall k | 0 <= k < |a|
      ensures b[k] == a[k].(inputs := b[k].inputs, outputs := b[k].outputs)
    {
      assert b[k] == a[k].(inputs := b[k].inputs);
    }
  }

  /** A graph keeps its inputs, outputs and initializers. */
  predicate SameBoundary(g: Graph, h: Graph) {
    h.inputs == g.inputs && h.outputs == g.outputs && h.initializers == g.initializers
  }

  /** The first graph input called `name`. */
  function FindGraphInput(g: Graph, name: string): (r: Option<ValueInfo>)
    ensures r.Some? ==> exists i :: FirstNamed(g.inputs, name, i) && g.inputs[i] == r.value
    ensures r.None? <==> name !in InputNames(g)
  {
    FindIn(g.inputs, name)
  }

  /** `vs[i]` is called `name` and no earlier entry is. */
  predicate FirstNamed(vs: seq<ValueInfo>, name: string, i: int) {
    0 <= i < |vs| && vs[i].name == name && forall j :: 0 <= j < i ==> vs[j].name != name
  }

  /** The first of `vs` called `name`. */
  function FindIn(vs: seq<ValueInfo>, name: string): (r: Option<ValueInfo>)
    ensures r.Some? ==> exists i :: FirstNamed(vs, name, i) && vs[i] == r.value
    ensures r.None? ==> forall v :: v in vs ==> v.name != name
  {
    if |vs| == 0 then None
    else if vs[0].name == name then
      assert FirstNamed(vs, name, 0);
      Some(vs[0])
    else
      var r := FindIn(vs[1..], name);
      assert r.Some? ==> exists i :: FirstNamed(vs, name, i) && vs[i] == r.value by {
        if r.Some? {
          var i :| FirstNamed(vs[1..], name, i) && vs[1..][i] == r.value;
          forall j | 0 <= j < i + 1
            ensures vs[j].name != name
          {
            if j > 0 {
              assert vs[j] == vs[1..][j - 1];
            }
          }
          assert FirstNamed(vs, name, i + 1) && vs[i + 1] == r.value;
        }
      }
      r
  }

  /** Position of the node that produces `name`: the LAST node listing it among
      its outputs, as a name-to-node dictionary built in node order keeps it. */
  function ProducerIndex(nodes: seq<Node>, name: string): (r: Option<nat>)
    ensures r.Some? ==> r.value < |nodes| && name in nodes[r.value].outputs
    ensures r.Some? ==> forall j :: r.value < j < |nodes| ==> name !in nodes[j].outputs
    ensures r.None? ==> forall j :: 0 <= j < |nodes| ==> name !in nodes[j].outputs
    decreases |nodes|
  {
    if |nodes| == 0 then None
    else if name in nodes[|nodes| - 1].outputs then Some(|nodes| - 1)
    else ProducerIndex(nodes[..|nodes| - 1], name)
  }

  /** Renaming the tensors a node reads or writes never moves a producer. */
  lemma {:induction false} ProducerIndexSameOutputs(a: seq<Node>, b: seq<Node>, name: string)
    requires |a| == |b|
    requires forall k :: 0 <= k < |a| ==> a[k].outputs == b[k].outputs
    ensures ProducerIndex(a, name) == ProducerIndex(b, name)
  {
    var ra, rb := ProducerIndex(a, name), ProducerIndex(b, name);
    if ra.Some? {
      assert name in b[ra.value].outputs;
    }
    if rb.Some? {
      assert name in a[rb.value].outputs;
    }
  }

  lemma ProducersStable(a: seq<Node>, b: seq<Node>)
    requires |a| == |b|
    requires forall k :: 0 <= k < |a| ==> a[k].outputs == b[k].outputs
    ensures forall name :: ProducerIndex(a, name) == ProducerIndex(b, name)
  {
    forall name
      ensures ProducerIndex(a, name) == ProducerIndex(b, name)
    {
      ProducerIndexSameOutputs(a, b, name);
    }
  }

  /** No tensor name is produced by two different nodes. */
  predicate UniqueProducers(nodes: seq<Node>) {
    forall i, j, x :: 0 <= i < j < |nodes| && x in nodes[i].outputs ==> x !in nodes[j].outputs
  }

  lemma ProducerOfOwnOutput(nodes: seq<Node>, k: nat, name: string)
    requires UniqueProducers(nodes)
    requires k < |nodes| && name in nodes[k].outputs
    ensures ProducerIndex(nodes, name) == Some(k)
  {
    var r := ProducerIndex(nodes, name);
    assert r.Some?;
  }

  /** Positions of the nodes reading `name`, one entry per node, in node order;
      the empty name marks an absent optional input and has no readers. */
  function Consumers(nodes: seq<Node>, name: string): (r: seq<nat>)
    ensures forall i :: 0 <= i < |r| ==> r[i] < |nodes| && name != "" && name in nodes[r[i]].inputs
    ensures forall k :: 0 <= k < |nodes| && name != "" && name in nodes[k].inputs ==> k in r
    ensures forall i, j :: 0 <= i < j < |r| ==> r[i] < r[j]
    decreases |nodes|
  {
    if |nodes| == 0 then []
    else
      var last := |nodes| - 1;
      Consumers(nodes[..last], name) + (if name != "" && name in nodes[last].inputs then [last] else [])
  }

  /** Every occurrence of `from` in `names` becomes `to`. */
  function Rename(names: seq<string>, from: string, to: string): (r: seq<string>)
    ensures |r| == |names|
    ensures forall i :: 0 <= i < |r| ==> r[i] == (if names[i] == from then to else names[i])
  {
    seq(|names|, i requires 0 <= i < |names| => if names[i] == from then to else names[i])
  }

  /** `replace_input_of_all_nodes`: every node now reads `to` wherever it read `from`. */
  function ReplaceInputOfAllNodes(nodes: seq<Node>, from: string, to: string): (r: seq<Node>)
    ensures |r| == |nodes|
    ensures forall k :: 0 <= k < |r| ==> r[k] == nodes[k].(inputs := Rename(nodes[k].inputs, from, to))
  {
    seq(|nodes|, k requires 0 <= k < |nodes| => nodes[k].(inputs := Rename(nodes[k].inputs, from, to)))
  }

  /** `replace_output_of_all_nodes`: every node now writes `to` wherever it wrote `from`. */
  function ReplaceOutputOfAllNodes(nodes: seq<Node>, from: string, to: string): (r: seq<Node>)
    ensures |r| == |nodes|
    ensures forall k :: 0 <= k < |r| ==> r[k] == nodes[k].(outputs := Rename(nodes[k].outputs, from, to))
  {
    seq(|nodes|, k requires 0 <= k < |nodes| => nodes[k].(outputs := Rename(nodes[k].outputs, from, to)))
  }

  /** The positions below `n`, from `i` on, that are not in `removed`, in increasing order. */
  function KeptIndices(n: nat, removed: set<nat>, i: nat): (r: seq<nat>)
    requires i <= n
    ensures |r| <= n - i
    ensures forall j :: 0 <= j < |r| ==> i <= r[j] < n && r[j] !in removed
    ensures forall j, j' :: 0 <= j < j' < |r| ==> r[j] < r[j']
    decreases n - i
  {
    if i == n then []
    else (if i in removed then [] else [i]) + KeptIndices(n, removed, i + 1)
  }

  /** Every position that is not removed is kept. */
  lemma {:induction false} KeptIndicesComplete(n: nat, removed: set<nat>, i: nat, k: nat)
    requires i <= k < n && k !in removed
    ensures k in KeptIndices(n, removed, i)
    decreases n - i
  {
    if i < k {
      KeptIndicesComplete(n, removed, i + 1, k);
    }
  }

  /** Renaming a name nobody reads changes nothing. */
  lemma ReplaceInputAbsent(nodes: seq<Node>, from: string, to: string)
    requires forall m, q :: 0 <= m < |nodes| && 0 <= q < |nodes[m].inputs| ==> nodes[m].inputs[q] != from
    ensures ReplaceInputOfAllNodes(nodes, from, to) == nodes
  {
    var r := ReplaceInputOfAllNodes(nodes, from, to);
    forall m | 0 <= m < |nodes|
      ensures r[m] == nodes[m]
    {
      assert Rename(nodes[m].inputs, from, to) == nodes[m].inputs;
    }
  }

  /** `remove_node` over a set of positions: the nodes whose position is not in
      `removed`, in their original order. */
  function Keep(nodes: seq<Node>, removed: set<nat>): (r: seq<Node>)
    ensures var idx := KeptIndices(|nodes|, removed, 0);
      |r| == |idx| && forall j :: 0 <= j < |r| ==> r[j] == nodes[idx[j]]
  {
    var idx := KeptIndices(|nodes|, removed, 0);
    seq(|idx|, j requires 0 <= j < |idx| => nodes[idx[j]])
  }

  /** Dropping only the last position gives back the prefix. */
  lemma {:induction false} KeepDropLast(nodes: seq<Node>, n: Node)
    ensures Keep(nodes + [n], {|nodes|}) == nodes
  {
    KeptIndicesDropLast(|nodes|, 0);
    var r := Keep(nodes + [n], {|nodes|});
    assert |r| == |nodes|;
    forall j | 0 <= j < |r|
      ensures r[j] == nodes[j]
    {
    }
  }

  lemma {:induction false} KeptIndicesDropLast(n: nat, i: nat)
    requires i <= n
    ensures var idx := KeptIndices(n + 1, {n}, i);
      |idx| == n - i && forall j :: 0 <= j < |idx| ==> idx[j] == i + j
    decreases n - i
  {
    var idx := KeptIndices(n + 1, {n}, i);
    if i < n {
      var rest := KeptIndices(n + 1, {n}, i + 1);
      KeptIndicesDropLast(n, i + 1);
      assert i !in {n};
      assert idx == [i] + rest;
    } else {
      assert i in {n};
      assert KeptIndices(n + 1, {n}, i + 1) == [];
      assert idx == [];
    }
  }

  /** Every node whose position is not removed has a copy among the kept nodes. */
  lemma KeepKeeps(nodes: seq<Node>, removed: set<nat>, k: nat)
    requires k < |nodes| && k !in removed
    ensures exists j :: 0 <= j < |Keep(nodes, removed)| && Keep(nodes, removed)[j] == nodes[k]
  {
    var idx := KeptIndices(|nodes|, removed, 0);
    KeptIndicesComplete(|nodes|, removed, 0, k);
    var j :| 0 <= j < |idx| && idx[j] == k;
    assert Keep(nodes, removed)[j] == nodes[k];
  }

  /** `add_node`: the new node goes last. */
  function AddNode(g: Graph, n: Node): (r: Graph)
    ensures r.nodes == g.nodes + [n]
    ensures r.inputs == g.inputs && r.outputs == g.outputs && r.initializers == g.initializers
  {
    g.(nodes := g.nodes + [n])
  }
}
